=== FILE: README.md ===
# Telecom data-usage dashboard: data pipeline model

This project is a Dafny model of the client-side data pipeline of a React
dashboard for telecom subscriber data usage. It also proves properties of
that pipeline. The pipeline has five parts:

- **CSV loader** (`loadCSVData`). Each tokenised cell is coerced per field:
  `parseFloat(v) || 0` for `data_usage_raw_total`, `latitude` and
  `longitude`, and the text for every other field. The unnamed index column
  is dropped. A validation gate keeps a row only if it has a truthy `msisdn`
  and truthy, non-NaN coordinates. A parse error rejects the load; row
  warnings do not.
- **Filter predicate.** The table and the map each carry an identical copy
  of it: region equality, status equality, and a case-insensitive substring
  search over `msisdn`, `kelurahan` and `kecamatan`. All three are combined
  with AND, and an empty criterion matches everything. The model defines the
  predicate once, and `MapView.VisibleMarkers` proves that the map's own loop
  selects exactly what the table's filter selects.
- **Overview panel.**
  - It selects the records of a fixed "today" and "yesterday".
  - It adds up their usage (a falsy usage counts as 0).
  - It computes the day-over-day percentage, which is '0' when yesterday's
    total is not positive.
  - It counts today's four known billing statuses.
  - It formats byte totals in MB, GB or TB and picks the up or down trend
    icon.
- **Small mappings.**
  - Table: the usage cell's KB/MB choice, the status badge, and the
    "Showing X to Y of N" label.
  - Map: the marker size, colour and label, and the initial centre.
- **Filter store.** Five string fields, a setter for each, and
  `clearFilters`, modelled as a reducer over actions.

How JavaScript values are modelled:

- A JavaScript number is `NaN` or a finite real (`JsNumbers.JsNumber`).
- Truthiness and the `x || 0` idiom are written out.
- `parseFloat` and `Number(string)` are modelled over ASCII decimal literals, trimmed of the full ECMAScript white space set (including U+00A0, U+FEFF and the other space separators and line terminators).
- A parsed row is a map from header names to cells. A cell is missing, a
  string, or a number.

Modules follow the program's files:

| module | what it models |
|---|---|
| `CsvLoader` | the CSV loader |
| `Filter` | the filter predicate of the table and the map |
| `FilterStore` | the filter store |
| `DataTable` | the table's mappings |
| `MapView` | the map's mappings |
| `Overview` | the overview panel |
| `Dashboard` | how the parts meet, and end-to-end scenarios |

Supporting modules:

| module | contents |
|---|---|
| `JsNumbers` | JavaScript numbers, `parseFloat`, `Number(string)` |
| `Text` | ASCII lower-casing and `includes` |
| `Units` | byte units |
| `Sequences` | the order-preserving `filter` |
| `Records` | the record type |
| `Wrappers` | `Option`/`Result` |

The dataset is a parameter: the table and the map filter whatever record
sequence they are given, and the overview panel receives the loader's result.

## Model

| member | source | states |
|---|---|---|
| CsvLoader.Coerce | src/utils/csvLoader.ts:21-23 | `parseFloat(v) \|\| 0` is 0 exactly when `parseFloat` gives a falsy number (NaN or 0). Otherwise it is that number. |
| CsvLoader.CoerceUnparseable | src/utils/csvLoader.ts:21-23 | An empty cell, or one that starts with none of white space, a digit, a sign, a point or the 'I' of "Infinity", coerces to 0. |
| CsvLoader.CoerceNumeral | src/utils/csvLoader.ts:21-23 | A cell holding the decimal numeral of n coerces to n. |
| CsvLoader.TransformValue | src/utils/csvLoader.ts:14-26 | A cell is undefined exactly when its field is unnamed. A cell of one of the three numeric fields becomes the number `parseFloat(v) \|\| 0`. A cell of any other named field is the unchanged text. |
| CsvLoader.BuildRow | src/utils/csvLoader.ts:10-26 | A built row is well-typed (numbers in the three numeric fields, text elsewhere), has no "" key, and has only header names as keys. |
| CsvLoader.IndexColumnIgnored | src/utils/csvLoader.ts:10-18 | The cells under the unnamed column never affect the built row. |
| CsvLoader.ColumnValue | src/utils/csvLoader.ts:14-26 | Under a named header without a later duplicate, the row holds that cell, coerced if numeric and the unchanged text otherwise. |
| CsvLoader.KeepTransformed | src/utils/csvLoader.ts:33-39 | On a well-typed row the five-part gate holds iff `msisdn` is present and non-empty and both coordinates are present and non-zero. The NaN tests never decide. |
| CsvLoader.ToRecord | src/utils/csvLoader.ts:33-42 | A row that is well-typed and passes the gate becomes a record with a non-empty id and two non-zero coordinates. A present usage is a number. |
| CsvLoader.LoadCsvData | src/utils/csvLoader.ts:27-47 | The load fails iff the library reports an error, with that same error. Otherwise it yields at most as many records as rows, all valid. |
| CsvLoader.LoadKeepsPassingRowsInOrder | src/utils/csvLoader.ts:33-42 | The loaded records are the projections of exactly the gate-passing transformed rows, in their original order. Each passing row appears as many times as it occurs, and a failing row not at all. |
| CsvLoader.WarningsDoNotMatter | src/utils/csvLoader.ts:27-30 | Row warnings never reject the load and never change its records. |
| CsvLoader.NoRowsLoadsEmpty | src/utils/csvLoader.ts:27-42 | A CSV with no data rows resolves with an empty collection. |
| JsNumbers.OrZero | src/utils/csvLoader.ts:22 | `n \|\| 0` is non-zero iff n is truthy, and then equals n. |
| JsNumbers.ScanDecimal | src/utils/csvLoader.ts:22 | The decimal prefix read by `parseFloat` is NaN iff it is empty, is non-empty when the text starts with a digit, and is empty when the text starts with anything but a digit, sign or point. |
| JsNumbers.ParseFloatOfNumeral | src/utils/csvLoader.ts:22 | `parseFloat` and `Number` both read the decimal numeral of n back as n. |
| JsNumbers.StringToNumber | src/utils/csvLoader.ts:37-38 | `Number` of a blank string is 0, not NaN. |
| JsNumbers.FractionLiteral | src/utils/csvLoader.ts:22 | A text `whole.fraction` of ASCII digits, with at least one digit, is read whole as an unsigned literal. Its value is whole + fraction / 10^(number of fraction digits). It has no sign in front and no white space at either end. |
| JsNumbers.ReadSignedWhole | src/utils/csvLoader.ts:22 | `parseFloat` and `Number` read such an unsigned literal as its value, and the same literal after a minus sign as the negated value. For example, "-6.2088" reads as -6.2088. |
| JsNumbers.ScanMinus | src/utils/csvLoader.ts:22 | After a leading minus sign, the decimal prefix is the unsigned literal that follows, negated and one character longer. |
| FilterStore.Dispatch | src/store/useFilterStore.ts:17-29 | A setter writes its own field with its argument and leaves every other field unchanged. `clearFilters` restores the initial state ("", "", "", "", "Basic"). |
| FilterStore.RunIsLastWrite | src/store/useFilterStore.ts:23-28 | After any sequence of actions, each field holds its last write, or its initial value after the last clear, or its starting value. The reference definition reads only the actions. |
| FilterStore.ClearIdempotent | src/store/useFilterStore.ts:28 | Clearing twice is clearing once. |
| FilterStore.LastWriteWins | src/store/useFilterStore.ts:23-27 | Two writes to one field leave the second value. |
| FilterStore.SettersCommute | src/store/useFilterStore.ts:23-27 | Setters of different fields commute. |
| Filter.ViewFollowsDispatch | src/components/DataTable.tsx:37 | The category, status and search setters each change only their own criterion of the view. The APN and map-type setters change none. `clearFilters` empties all three. |
| Filter.FilterRecords | src/components/DataTable.tsx:99-110 | The shown records are a subsequence of the data and contain a record iff it is in the data and matches region, status and search. |
| Filter.ShownRecordsMatchExactly | src/components/DataTable.tsx:101-102 | A shown record has exactly the region of a non-empty category and exactly the status of a non-empty status criterion. |
| Filter.FilterRecordsAppend | src/components/DataTable.tsx:99-110 | Filtering a concatenation filters each part and concatenates. |
| Filter.NoCriteriaKeepsAll | src/components/DataTable.tsx:101-103 | With all three criteria empty, every record is shown in order. |
| Filter.FilterRecordsIdempotent | src/components/DataTable.tsx:99-110 | Filtering the filtered rows again changes nothing. |
| Filter.SearchOccurs | src/components/DataTable.tsx:103-106 | A non-empty search matches iff the lower-cased query occurs at some position in the lower-cased id, kelurahan or kecamatan. |
| Filter.SearchIgnoresCase | src/components/DataTable.tsx:103-106 | The query's letter case does not affect the match. |
| Filter.MissingLetterMisses | src/components/DataTable.tsx:103-106 | A search whose first letter occurs in neither case in the id, the kelurahan or the kecamatan matches nothing. |
| Filter.NarrowingIsSubsequence | src/components/DataTable.tsx:99-110 | Criteria that imply other criteria select a subsequence of what the weaker ones select. |
| Text.ToLower | src/components/DataTable.tsx:104-106 | Lower-casing keeps the length and turns each letter 'A' to 'Z' into the matching 'a' to 'z'. It changes no other character and leaves no upper-case letter. |
| Text.IncludesAt | src/components/DataTable.tsx:104-106 | `includes` holds iff the pattern occurs at some index. |
| DataTable.UsageCell | src/components/DataTable.tsx:60-67 | The cell shows MB iff `usage \|\| 0` is at least one MiB and KB otherwise. The shown amount times its unit is exactly `usage \|\| 0`. |
| DataTable.StatusBadge | src/components/DataTable.tsx:81-86 | The badge is success iff the status is IN-BILLING, warning iff OUT-OF-BILLING, and error iff SUSPENDED. The ghost badge appears iff the status is none of the three. |
| DataTable.BadgesDistinguishKnownStatuses | src/components/DataTable.tsx:82-86 | Two statuses with the same non-ghost badge are the same status. |
| DataTable.ShowingLabel | src/components/DataTable.tsx:178-184 | The label starts at pageIndex·pageSize+1, never exceeds the total, and on a non-empty page spans min(pageSize, remaining) rows. |
| DataTable.PagesTile | src/components/DataTable.tsx:179-184 | A full page spans exactly pageSize rows, and the next page's label starts right after it ends. No row is skipped or shown twice. |
| DataTable.LastPageEndsAtTotal | src/components/DataTable.tsx:179-184 | The last page of a non-empty table ends at the total. |
| DataTable.DefaultPages | src/components/DataTable.tsx:119-122 | With six rows per page and 20 rows, the first page reads "1 to 6 of 20" and the fourth reads "19 to 20 of 20". |
| DataTable.EmptyTableLabel | src/components/DataTable.tsx:178-184 | With no rows the label reads "1 to 0 of 0". |
| MapView.VisibleMarkers | src/components/MapView.tsx:29-40 | The map's own filtering pass draws exactly the records the table shows, in the same order. |
| MapView.MapCenter | src/components/MapView.tsx:43-46 | With no visible markers the centre is (-6.2088, 106.8456). |
| MapView.CenterWithinBox | src/components/MapView.tsx:43-52 | When all markers lie in a latitude/longitude box, the centre is a finite point of that box. |
| MapView.MeanOfBounded | src/components/MapView.tsx:48-49 | The mean of coordinates within [lo, hi] is a number within [lo, hi]. |
| MapView.MaxUsage | src/components/MapView.tsx:57 | The maximum of `usage \|\| 0` is absent only for no markers. It bounds every marker's value and is attained by one. |
| MapView.MarkerSize | src/components/MapView.tsx:55-56 | A falsy or non-positive usage gives size 15. |
| MapView.MarkerSizeBounds | src/components/MapView.tsx:55-63 | A drawn marker's size is in [15, 45]. It is 15 iff its usage is not positive, and 45 iff its usage is positive and the maximum. |
| MapView.MarkerSizeProportional | src/components/MapView.tsx:58-61 | Among markers with positive usage, the size above the minimum is proportional to the usage: one marker's extra size times another's usage equals the other's extra size times the first's usage. |
| MapView.MarkerSizeMonotone | src/components/MapView.tsx:55-63 | Among drawn markers, a larger usage never gives a smaller marker. |
| MapView.MarkerColor | src/components/MapView.tsx:66-73 | The fill is green iff the status is IN-BILLING, amber iff OUT-OF-BILLING, and red iff SUSPENDED. It is grey iff the status is none of the three. |
| MapView.ColourAgreesWithBadge | src/components/MapView.tsx:66-73 | Two statuses share a marker colour iff they share a table badge. |
| MapView.MarkerText | src/components/MapView.tsx:102-106 | The label is "0" iff the usage is falsy, and otherwise MB from one MiB up and KB below. The amount times its unit is the usage. |
| MapView.MarkerTextAgreesWithTable | src/components/MapView.tsx:102-106 | For a truthy usage the marker shows the same amount and unit as the table cell. |
| Overview.DayRecords | src/components/Overview.tsx:29-30 | A day's records are exactly the records with that `event_date`. |
| Overview.TotalUsageAppend | src/components/Overview.tsx:33-34 | The usage total of a concatenation is the sum of the parts' totals. |
| Overview.DayTotal | src/components/Overview.tsx:29-34 | One pass that adds the usage of records dated d equals the total of d's filtered records. |
| Overview.TotalUsageNonNegative | src/components/Overview.tsx:33-34 | With no negative usage, a day's total is not negative. |
| Overview.PercentChange | src/components/Overview.tsx:37-38 | The change is '0' iff yesterday's total is not positive. Otherwise yesterday grown by the percentage gives today's total. |
| Overview.PercentChangeSign | src/components/Overview.tsx:37-38 | A reported change is positive iff today's total is larger, and zero iff they are equal. |
| Overview.Tally | src/components/Overview.tsx:41-57 | The switch raises the counter named by the status by one and leaves the others. An unknown status raises none. |
| Overview.CountStatuses | src/components/Overview.tsx:41-57 | The reduce ends with each counter equal to the number of records with exactly that status. |
| Overview.CountsBounded | src/components/Overview.tsx:41-57 | The four counters sum to at most the number of today's records, and to exactly that iff every status is one of the four. |
| Overview.FormatDataUsage | src/components/Overview.tsx:83-91 | MB below one GiB, GB below 1000 GiB, TB from there. The amount times its unit is exactly the bytes. |
| Overview.FormatBoundaries | src/components/Overview.tsx:84-86 | 1073741824 bytes (one GiB) is shown as 1 GB, and 1023 MiB is shown in MB. |
| Overview.FormatMixedRadix | src/components/Overview.tsx:86-89 | 1000 GiB is shown as 1000/1024 TB, while 999 GiB is shown as 999 GB. |
| Overview.Fixed2 | src/components/Overview.tsx:85-89 | Reading back a two-decimal label gives a whole number of hundredths. It lies within 0.005 of the amount, strictly below that bound on the side away from zero, so a half rounds away from zero. It never changes the amount's sign. |
| Overview.Fixed2Monotone | src/components/Overview.tsx:85-89 | Rounding to two decimals never reverses the order of two amounts. |
| Overview.TrendIconAsWritten | src/components/Overview.tsx:93-101 | As written, the icon is upward iff today's label number, rounded to two decimals, exceeds yesterday's. The units play no part. |
| Overview.TrendAsWrittenIgnoresUnits | src/components/Overview.tsx:93-101 | As written, a smaller total today can get the upward icon (500 MB against 2 GB), and a larger one the downward icon (1000 GiB as TB against 999 GB). |
| Overview.TrendAsWrittenRoundsTies | src/components/Overview.tsx:85-101 | As written, 1.004 GiB today against 1.001 GiB yesterday both read "1.00 GB", so the icon points down although usage rose. |
| Overview.TrendAsWrittenContradictsPercent | src/components/Overview.tsx:124-125 | As written, 500 MiB against 2 GiB shows a negative percentage beside the upward icon. |
| Overview.TrendIconFollowsTotals | src/components/Overview.tsx:93-101 | On formatted totals the corrected icon is upward iff today's total is larger. Ties are downward. |
| Overview.TrendIconAgreesWithPercent | src/components/Overview.tsx:124-125 | Whenever a percentage is computed, the corrected icon is upward iff that percentage is positive. |
| Overview.TrendAsWrittenWithinUnit | src/components/Overview.tsx:93-101 | When both labels share a unit, an upward icon as written is also upward after the correction. |
| Overview.TallyAll | src/components/Overview.tsx:41-57 | Folding the status switch over the rows from zero counters gives, for each of the four statuses, the number of rows with exactly that status. |
| Overview.Summary | src/components/Overview.tsx:28-70 | After a load, each day's label scales back to that day's byte total, in MB below one GiB, in GB below 1000 GiB and in TB from there, and in no other unit. The percentage is '0' exactly when yesterday's total is not positive, and otherwise grows yesterday's total into today's. The counters equal the per-status counts of today's records and add up to at most their number. |
| Overview.ProcessData | src/components/Overview.tsx:22-80 | A rejected load leaves the initial '0 GB' / '0' / zero-count state. A successful one shows what `Summary` states: the two labels scale back to the day totals, the percentage grows yesterday's total into today's, and the counters are today's per-status counts. |
| Overview.InitialStateIsEmpty | src/components/Overview.tsx:7-19 | The initial state shows zero bytes on both days and the downward icon. |
| Dashboard.ClearedStoreShowsEverything | src/store/useFilterStore.ts:28 | After `clearFilters`, the table shows every record. |
| Dashboard.InitialStoreShowsEverything | src/store/useFilterStore.ts:18-22 | In the store's initial state, the table shows every record. |
| Dashboard.ApnAndMapTypeDoNotFilter | src/store/useFilterStore.ts:26-27 | Setting `apn` or `mapType` never changes the table's rows. |
| Dashboard.LoadedRecordsHaveCoordinates | src/utils/csvLoader.ts:33-39 | Every loaded record has a non-empty id and two non-zero coordinates. |
| Dashboard.GateUnderHeader | src/utils/csvLoader.ts:10-39 | Under a header led by the unnamed column, a line is kept iff its id is non-empty and both coordinate cells coerce to non-zero numbers. |
| Dashboard.CsvRegionScenario | src/utils/csvLoader.ts:27-42 | Three lines load as the first two records, in order: two with an id and coordinates (6, 106) and (7, 112), and one with an empty latitude. The region filter "JABAR" then keeps only the first. |
| Dashboard.RegionScenario | src/components/DataTable.tsx:101 | On two records, a region filter keeps exactly the one of that region. |
| Dashboard.EqualDaysScenario | src/components/Overview.tsx:29-38 | Equal totals on both days (4000 bytes) give a zero change, not the '0' of a missing yesterday. |
| Dashboard.SearchScenario | src/components/DataTable.tsx:103-106 | "jak" matches a record whose kelurahan is "Jakarta Selatan". |
| Dashboard.SearchMissScenario | src/components/DataTable.tsx:103-106 | "jak" misses a record whose id and location names contain no 'j' or 'J'. |

## Left out

- Tokenising of the CSV text (quoting, delimiters, `skipEmptyLines`) is the library's job. The model starts from the header names and tokenised rows it hands over.
- `dynamicTyping` is not modelled. The model keeps every non-numeric cell as the text the transform returns. The CSV library would instead type such a cell when the transform returns a numeric or boolean string, and turn an empty string into `null`. So a line whose `msisdn` is "0", "0.0" or "false" gets a falsy id and fails the gate in the program, while `KeepTransformed` keeps it.
- A row with more cells than headers gets an extra-fields array from the CSV library. That key is not modelled.
- The library stores the unnamed header's column under a key of its own. The model drops that column instead; either way no record field reads it.
- `loadCSVFromUrl` is not modelled, because it is network I/O around `loadCSVData`.
- Console logging of warnings, errors and counts is not modelled.
- Rendering is not modelled: JSX, Mapbox, react-table sorting, page navigation buttons and the legend.
- DataTable.ShowingLabel: the span is stated only for a page that starts within the rows. The table resets to an existing page when the filtered rows shrink; that reset belongs to the table library and is not modelled, so a page index past the end is not ruled out.
- `toFixed` rounding is modelled only where the trend icon reads the labels back (`Overview.Fixed2`). The labels themselves carry the exact amount and its unit. The exponent form that `toFixed` uses from 1e21 up is not modelled.
- Floating-point arithmetic is modelled as exact real arithmetic.
- Infinities and exponent notation in `parseFloat` are not modelled. In the program `parseFloat` reads "Infinity" (with or without a sign) and "1e999" as an infinity, and "1e3" as 1000. The model reads "Infinity" as NaN and the others as their leading digits.
- CsvLoader.CoerceUnparseable: a cell starting with 'I' is left out, because the program coerces "Infinity" to an infinity, which the model has no value for.
- CsvLoader.ToRecord: the coordinates are finite only because the model has no infinities. In the program a coordinate cell "Infinity" or "1e999" coerces to an infinity, which is truthy and not NaN, so the gate keeps the line with an infinite coordinate. The model coerces "Infinity" to 0 and drops the line, and reads "1e999" as 1.
- Dashboard.LoadedRecordsHaveCoordinates: for the same reason, the program can load a record with an infinite coordinate, which this lemma does not describe.
- Duplicate header names: the model lets a later column replace an earlier one with the same name. Some versions of the CSV library rename duplicate headers instead. The library version is not part of this model, so only `ColumnValue` for a header without a later duplicate is stated.
- `toLowerCase` is modelled on ASCII letters only.
- The badge lookup is an object-literal index. Inherited object keys such as "constructor" are not modelled.
- The percentage is kept as a number rather than its two-decimal string.
- `Filters.tsx` and `App.tsx` only wire the store to inputs and lay out the components.
- The table and the map read a bundled JSON dataset. Here it is a parameter, and the overview panel's CSV import is the loader's input.
- MapView.MapCenter: its contract covers only the empty case. The non-empty case is stated by MapView.CenterWithinBox for markers within a box.
- MapView.MarkerSize: the `-Infinity` maximum of an empty marker list is modelled as an absent maximum giving size 15. This matches JavaScript, because a positive usage divided by `-Infinity` is -0.
- The trend icon: the panel as written compares the rounded numbers of the two labels. The model's panel uses the corrected comparison; see Findings.
- Overview.TrendAsWrittenWithinUnit: it promises only one direction. Within one unit the as-written icon can still point down while usage rose, when both totals round to the same label (`Overview.TrendAsWrittenRoundsTies`).

## Findings

| source | as written | input that shows it | evidently intended | confidence | as-written member | corrected member |
|---|---|---|---|---|---|---|
| src/components/Overview.tsx:93-101 | `parseFloat` of the formatted labels ("500.00 MB", "2.00 GB") compares only their numbers, so the unit is ignored | today 500 MiB, yesterday 2 GiB: 500 > 2 shows the upward icon although usage fell. Today 1000 GiB ("0.98 TB"), yesterday 999 GiB ("999.00 GB"): the downward icon although usage rose | upward icon iff today's total exceeds yesterday's | not executed | Overview.TrendAsWrittenIgnoresUnits | Overview.TrendIconFollowsTotals |
| src/components/Overview.tsx:85-101 | the icon compares the two-decimal labels, so totals that round alike tie | today 1.004 GiB, yesterday 1.001 GiB: both read "1.00 GB", and the downward icon shows although usage rose | upward icon iff today's total exceeds yesterday's | not executed | Overview.TrendAsWrittenRoundsTies | Overview.TrendIconFollowsTotals |

The percentage beside the icon (src/components/Overview.tsx:37-38 and
124-125) is computed from the byte totals. So the icon is evidently meant
to follow the same comparison. As written, the two can disagree: 500 MiB
against 2 GiB shows -75.59% beside the upward icon
(`Overview.TrendAsWrittenContradictsPercent`). The corrected icon is upward
iff the percentage is positive, whenever one is computed
(`Overview.TrendIconAgreesWithPercent`). Both versions are modelled. The
as-written members follow the code, and the panel's `UsageTrend` uses the
corrected comparison.

=== FILE: CsvLoader.dfy ===
/** `loadCSVData`: the per-field coercion applied to each tokenised cell, the
    removal of the unnamed index column, and the validation gate that decides
    which rows become records. Tokenising itself is the CSV library's job and
    is an input here. */
module CsvLoader {
  import opened Wrappers
  import opened JsNumbers
  import opened Sequences
  import opened Records

  /** A property of a parsed row object: absent/undefined, a string, or a number. */
  datatype Cell = Missing | Text(s: string) | Number(n: JsNumber)

  /** A parsed row: the object the CSV library builds from header names to cells. */
  type Row = map<string, Cell>

  /** The columns coerced to numbers. */
  const NumericFields: set<string> := {"data_usage_raw_total", "latitude", "longitude"}

  /** The header transform: the unnamed first column gets no name. */
  function TransformHeader(header: string): (field: Option<string>)
    ensures field.None? <==> header == ""
    ensures field.Some? ==> field.value == header
  {
    if header == "" then None else Some(header)
  }

  /** `parseFloat(value) || 0`. */
  function Coerce(value: string): (x: real)
    ensures x == 0.0 <==> !Truthy(ParseFloat(value))
    ensures x != 0.0 ==> ParseFloat(value) == Num(x)
  {
    OrZero(ParseFloat(value))
  }

  /** An empty cell, or one that begins with neither white space, a digit, a
      sign, a decimal point nor the 'I' of "Infinity", coerces to exactly 0. */
  lemma CoerceUnparseable(value: string)
    requires value == [] || !(IsSpace(value[0]) || IsDigit(value[0]) || value[0] in ".+-I")
    ensures Coerce(value) == 0.0
  {
    assert TrimStart(value) == value;
  }

  /** A cell holding the decimal numeral of a natural number coerces to that number. */
  lemma CoerceNumeral(n: nat)
    ensures Coerce(DecimalNumeral(n)) == n as real
  {
    ParseFloatOfNumeral(n);
  }

  /** The value transform: unnamed columns become undefined, the numeric
      columns are coerced, every other cell is kept as its text. */
  function TransformValue(value: string, field: Option<string>): (c: Cell)
    ensures c.Missing? <==> field.None? || field == Some("")
    ensures c.Number? ==> c.n.Num?
    ensures field.Some? && field.value in NumericFields ==> c == Number(Num(Coerce(value)))
    ensures field.Some? && field.value != "" && field.value !in NumericFields ==> c == Text(value)
  {
    if field.None? || field == Some("") then Missing
    else if field.value in NumericFields then Number(Num(Coerce(value)))
    else Text(value)
  }

  /** A transformed row's shape: numeric columns hold numbers that are never
      NaN, every other column holds text. */
  predicate WellTyped(row: Row) {
    forall f :: f in row ==>
      if f in NumericFields then row[f].Number? && row[f].n.Num? else row[f].Text?
  }

  /** The row object built from one tokenised line: cell `i` goes under header
      `i`; cells without a header and headers without a cell add nothing. */
  function BuildRow(headers: seq<string>, cells: seq<string>): (row: Row)
    ensures WellTyped(row)
    ensures "" !in row
    ensures forall f :: f in row ==> f in headers
  {
    Columns(headers, cells, if |headers| < |cells| then |headers| else |cells|)
  }

  /** The row object after the first `n` columns have been assigned. */
  function Columns(headers: seq<string>, cells: seq<string>, n: nat): (row: Row)
    requires n <= |headers| && n <= |cells|
    ensures WellTyped(row)
    ensures "" !in row
    ensures forall f :: f in row ==> f in headers[..n]
  {
    if n == 0 then map[]
    else
      var prev := Columns(headers, cells, n - 1);
      assert forall f :: f in headers[..n - 1] ==> f in headers[..n];
      match TransformHeader(headers[n - 1])
      case None => prev
      case Some(f) =>
        assert f == headers[..n][n - 1];
        prev[f := TransformValue(cells[n - 1], Some(f))]
  }

  /** The cells under the unnamed index column never reach the row: any value
      there builds the same row. */
  lemma IndexColumnIgnored(headers: seq<string>, cells: seq<string>, i: nat, v: string)
    requires i < |headers| && i < |cells| && headers[i] == ""
    ensures BuildRow(headers, cells[i := v]) == BuildRow(headers, cells)
  {
    IndexColumnIgnoredUpTo(headers, cells, i, v, if |headers| < |cells| then |headers| else |cells|);
  }

  lemma {:induction false} IndexColumnIgnoredUpTo(headers: seq<string>, cells: seq<string>, i: nat, v: string, n: nat)
    requires i < |headers| && i < |cells| && headers[i] == ""
    requires n <= |headers| && n <= |cells|
    ensures Columns(headers, cells[i := v], n) == Columns(headers, cells, n)
  {
    if n > 0 {
      IndexColumnIgnoredUpTo(headers, cells, i, v, n - 1);
    }
  }

  /** The value under a named header is the transform of the last cell in
      that column: numeric columns coerced, others passed through unchanged. */
  lemma ColumnValue(headers: seq<string>, cells: seq<string>, i: nat)
    requires i < |headers| && i < |cells| && headers[i] != ""
    requires forall j :: i < j < |headers| && j < |cells| ==> headers[j] != headers[i]
    ensures headers[i] in BuildRow(headers, cells)
    ensures headers[i] in NumericFields ==> BuildRow(headers, cells)[headers[i]] == Number(Num(Coerce(cells[i])))
    ensures headers[i] !in NumericFields ==> BuildRow(headers, cells)[headers[i]] == Text(cells[i])
  {
    ColumnValueUpTo(headers, cells, i, if |headers| < |cells| then |headers| else |cells|);
  }

  lemma {:induction false} ColumnValueUpTo(headers: seq<string>, cells: seq<string>, i: nat, n: nat)
    requires i < n <= |headers| && n <= |cells| && headers[i] != ""
    requires forall j :: i < j < n ==> headers[j] != headers[i]
    ensures headers[i] in Columns(headers, cells, n)
    ensures Columns(headers, cells, n)[headers[i]] == TransformValue(cells[i], Some(headers[i]))
  {
    var prev := Columns(headers, cells, n - 1);
    if n - 1 > i {
      ColumnValueUpTo(headers, cells, i, n - 1);
      assert headers[n - 1] != headers[i];
    } else {
      assert TransformHeader(headers[i]) == Some(headers[i]);
    }
  }

  /** Reading a property of a row object; absent properties read as undefined. */
  function Get(row: Row, field: string): Cell {
    if field in row then row[field] else Missing
  }

  /** JavaScript truthiness of a property value. */
  predicate CellTruthy(c: Cell) {
    match c
    case Missing => false
    case Text(s) => s != ""
    case Number(n) => Truthy(n)
  }

  /** JavaScript's global `isNaN` of a property value. */
  predicate CellIsNaN(c: Cell) {
    match c
    case Missing => true
    case Text(s) => StringToNumber(s).NaN?
    case Number(n) => n.NaN?
  }

  /** The validation gate: a subscriber id and two truthy, non-NaN coordinates. */
  predicate Keep(row: Row) {
    && CellTruthy(Get(row, "msisdn"))
    && CellTruthy(Get(row, "latitude"))
    && CellTruthy(Get(row, "longitude"))
    && !CellIsNaN(Get(row, "latitude"))
    && !CellIsNaN(Get(row, "longitude"))
  }

  /** A coordinate column that is present and not zero. */
  predicate NonZeroCoordinate(row: Row, field: string)
    requires field in NumericFields
  {
    field in row && row[field] != Number(Num(0.0))
  }

  /** On transformed rows the NaN tests never decide anything: a row is kept
      exactly when it has a non-empty id and both coordinates are non-zero
      (a garbage coordinate was coerced to 0, so it excludes the row too). */
  lemma KeepTransformed(row: Row)
    requires WellTyped(row)
    ensures Keep(row) <==>
      && "msisdn" in row && row["msisdn"] != Text("")
      && NonZeroCoordinate(row, "latitude")
      && NonZeroCoordinate(row, "longitude")
  {
  }

  /** The string under `field`, or "" when there is none. */
  function TextOf(row: Row, field: string): string {
    match Get(row, field)
    case Text(s) => s
    case _ => ""
  }

  /** The number under `field`, or NaN when there is none. */
  function NumberOf(row: Row, field: string): JsNumber {
    match Get(row, field)
    case Number(n) => n
    case _ => NaN
  }

  /** What a kept record guarantees: an id and two non-zero coordinates. */
  predicate ValidRecord(r: UsageRecord) {
    r.msisdn != "" && Truthy(r.latitude) && Truthy(r.longitude)
  }

  /** The row read through the `DataUsageRecord` type. */
  function ToRecord(row: Row): (r: UsageRecord)
    ensures WellTyped(row) && Keep(row) ==> ValidRecord(r)
    ensures WellTyped(row) && "data_usage_raw_total" in row ==> r.usage.Num?
  {
    UsageRecord(
      TextOf(row, "msisdn"), TextOf(row, "current_billing_status"), NumberOf(row, "data_usage_raw_total"),
      TextOf(row, "apn_name"), TextOf(row, "event_date"), TextOf(row, "is_use_internet"),
      NumberOf(row, "latitude"), NumberOf(row, "longitude"),
      TextOf(row, "provinsi"), TextOf(row, "kabupaten"), TextOf(row, "kecamatan"),
      TextOf(row, "kelurahan"), TextOf(row, "area"), TextOf(row, "region"))
  }

  function Project(rows: seq<Row>): (rs: seq<UsageRecord>)
    ensures |rs| == |rows|
    ensures forall i :: 0 <= i < |rows| ==> rs[i] == ToRecord(rows[i])
  {
    seq(|rows|, i requires 0 <= i < |rows| => ToRecord(rows[i]))
  }

  /** What the CSV library hands to `complete`: header names, the tokenised
      rows, and its list of row warnings. */
  datatype ParseResults = ParseResults(headers: seq<string>, rows: seq<seq<string>>, errors: seq<string>)

  /** The CSV library calls back either `complete` or `error`. */
  datatype ParseEvent = Complete(results: ParseResults) | ParseError(error: string)

  function TransformedRows(p: ParseResults): (rows: seq<Row>)
    ensures |rows| == |p.rows|
    ensures forall i :: 0 <= i < |rows| ==> rows[i] == BuildRow(p.headers, p.rows[i])
  {
    seq(|p.rows|, i requires 0 <= i < |p.rows| => BuildRow(p.headers, p.rows[i]))
  }

  /** `loadCSVData`: resolves with the records of the rows that pass the gate,
      or rejects with the library's error. Warnings do not reject. */
  function LoadCsvData(event: ParseEvent): (r: Result<seq<UsageRecord>, string>)
    ensures r.Failure? <==> event.ParseError?
    ensures r.Failure? ==> r.error == event.error
    ensures r.Success? ==> |r.value| <= |event.results.rows|
    ensures r.Success? ==> forall x :: x in r.value ==> ValidRecord(x)
  {
    match event
    case ParseError(e) => Failure(e)
    case Complete(p) =>
      var kept := Filter(TransformedRows(p), Keep);
      var records := Project(kept);
      assert forall x :: x in records ==> ValidRecord(x) by {
        forall x | x in records
          ensures ValidRecord(x)
        {
          var i :| 0 <= i < |records| && records[i] == x;
          assert kept[i] in kept;
        }
      }
      Success(records)
  }

  /** The loaded records are, in order, the records of exactly those
      transformed rows that pass the gate, each passing row as many times as
      it occurs. */
  lemma LoadKeepsPassingRowsInOrder(p: ParseResults)
    ensures exists kept ::
      && IsSubsequence(kept, TransformedRows(p))
      && (forall row :: row in kept <==> row in TransformedRows(p) && Keep(row))
      && (forall row :: multiset(kept)[row] == if Keep(row) then multiset(TransformedRows(p))[row] else 0)
      && LoadCsvData(Complete(p)) == Success(Project(kept))
  {
    var kept := Filter(TransformedRows(p), Keep);
    FilterMultiplicity(TransformedRows(p), Keep);
    assert LoadCsvData(Complete(p)) == Success(Project(kept));
  }

  /** Row warnings are only logged: they never change what the load resolves with. */
  lemma WarningsDoNotMatter(headers: seq<string>, rows: seq<seq<string>>, errors: seq<string>)
    ensures LoadCsvData(Complete(ParseResults(headers, rows, errors)))
         == LoadCsvData(Complete(ParseResults(headers, rows, [])))
    ensures LoadCsvData(Complete(ParseResults(headers, rows, errors))).Success?
  {
  }

  /** A header with no data rows loads as an empty collection, not an error. */
  lemma NoRowsLoadsEmpty(headers: seq<string>, errors: seq<string>)
    ensures LoadCsvData(Complete(ParseResults(headers, [], errors))) == Success([])
  {
  }
}

=== FILE: Dashboard.dfy ===
/** How the pieces meet: the store drives the table and map filters, the
    loader feeds the overview, and three end-to-end scenarios. */
module Dashboard {
  import opened Wrappers
  import Sequences
  import opened JsNumbers
  import opened Text
  import opened Records
  import opened CsvLoader
  import opened FilterStore
  import opened Filter
  import opened DataTable
  import opened MapView
  import opened Overview

  /** After `clearFilters`, from any state, the table shows every record. */
  lemma ClearedStoreShowsEverything(data: seq<UsageRecord>, s: FilterState)
    ensures TableRows(data, Dispatch(s, ClearFilters)) == data
  {
    NoCriteriaKeepsAll(data);
  }

  /** The store's initial state filters nothing either. */
  lemma InitialStoreShowsEverything(data: seq<UsageRecord>)
    ensures TableRows(data, Initial) == data
  {
    NoCriteriaKeepsAll(data);
  }

  /** Setting `apn` or `mapType` does not change what the views show. */
  lemma ApnAndMapTypeDoNotFilter(data: seq<UsageRecord>, s: FilterState, a: Action)
    requires a.SetApn? || a.SetMapType?
    ensures TableRows(data, Dispatch(s, a)) == TableRows(data, s)
  {
    ViewFollowsDispatch(s, a);
  }

  /** Every record the loader yields has an id and two non-zero coordinates. */
  lemma LoadedRecordsHaveCoordinates(event: ParseEvent, r: UsageRecord)
    requires LoadCsvData(event).Success? && r in LoadCsvData(event).value
    ensures r.msisdn != ""
    ensures r.latitude.Num? && r.latitude.v != 0.0
    ensures r.longitude.Num? && r.longitude.v != 0.0
  {
  }

  function Sample(msisdn: string, status: string, usage: real, date: string, kelurahan: string, region: string): UsageRecord {
    UsageRecord(msisdn, status, Num(usage), "internet", date, "Y", Num(-6.2), Num(106.8),
                "DKI JAKARTA", "JAKARTA SELATAN", "KEBAYORAN BARU", kelurahan, "AREA 2", region)
  }

  /** A region filter on two loaded records keeps exactly the record of that region. */
  lemma RegionScenario()
    ensures var jabar := Sample("628111", InBilling, 2097152.0, Today, "Cibeunying", "JABAR");
            var jatim := Sample("628222", Suspended, 0.0, Today, "Gubeng", "JATIM");
      FilterRecords([jabar, jatim], Criteria("JABAR", "", "")) == [jabar]
  {
    var jabar := Sample("628111", InBilling, 2097152.0, Today, "Cibeunying", "JABAR");
    var jatim := Sample("628222", Suspended, 0.0, Today, "Gubeng", "JATIM");
    assert FilterRecords([jatim], Criteria("JABAR", "", "")) == [];
    FilterRecordsAppend([jabar], [jatim], Criteria("JABAR", "", ""));
    assert [jabar] + [jatim] == [jabar, jatim];
  }

  /** A header row led by the unnamed index column. */
  const Header: seq<string> := ["", "msisdn", "current_billing_status", "data_usage_raw_total", "latitude", "longitude", "region"]

  /** Under that header, a full line is kept iff its id is non-empty and both
      coordinate cells coerce to non-zero numbers. */
  lemma GateUnderHeader(cells: seq<string>)
    requires |cells| == |Header|
    ensures Keep(BuildRow(Header, cells)) <==> cells[1] != "" && Coerce(cells[4]) != 0.0 && Coerce(cells[5]) != 0.0
  {
    HeaderColumns(cells);
    GateOfCells(BuildRow(Header, cells), cells[1], Coerce(cells[4]), Coerce(cells[5]));
  }

  /** Under that header, the id and the two coordinates land in their fields. */
  lemma HeaderColumns(cells: seq<string>)
    requires |cells| == |Header|
    ensures var row := BuildRow(Header, cells);
      && "msisdn" in row && row["msisdn"] == Text(cells[1])
      && "latitude" in row && row["latitude"] == Number(Num(Coerce(cells[4])))
      && "longitude" in row && row["longitude"] == Number(Num(Coerce(cells[5])))
  {
    IdUnderHeader(cells);
    CoordinateUnderHeader(cells, 4);
    CoordinateUnderHeader(cells, 5);
  }

  lemma IdUnderHeader(cells: seq<string>)
    requires |cells| == |Header|
    ensures "msisdn" in BuildRow(Header, cells) && BuildRow(Header, cells)["msisdn"] == Text(cells[1])
  {
    assert Header[1] == "msisdn" && "msisdn" !in NumericFields;
    ColumnValue(Header, cells, 1);
  }

  lemma CoordinateUnderHeader(cells: seq<string>, i: nat)
    requires |cells| == |Header| && (i == 4 || i == 5)
    ensures Header[i] in BuildRow(Header, cells) && BuildRow(Header, cells)[Header[i]] == Number(Num(Coerce(cells[i])))
  {
    assert Header[i] in NumericFields;
    ColumnValue(Header, cells, i);
  }

  /** The gate on a row whose id is `id` and whose coordinates are `lat` and `lng`. */
  lemma GateOfCells(row: Row, id: string, lat: real, lng: real)
    requires WellTyped(row)
    requires "msisdn" in row && row["msisdn"] == Text(id)
    requires "latitude" in row && row["latitude"] == Number(Num(lat))
    requires "longitude" in row && row["longitude"] == Number(Num(lng))
    ensures Keep(row) <==> id != "" && lat != 0.0 && lng != 0.0
  {
    KeepTransformed(row);
  }

  /** Three lines under that header: two with an id and coordinates (6, 106)
      and (7, 112) in regions "JABAR" and "JATIM", and one with an empty latitude. Loading
      yields two records, and the region filter "JABAR" keeps exactly the
      first. */
  lemma CsvRegionScenario(a: seq<string>, b: seq<string>, c: seq<string>, errors: seq<string>)
    requires |a| == |Header| && |b| == |Header| && |c| == |Header|
    requires a[1] != "" && a[4] == "6" && a[5] == "106" && a[6] == "JABAR"
    requires b[1] != "" && b[4] == "7" && b[5] == "112" && b[6] == "JATIM"
    requires c[4] == ""
    ensures var loaded := LoadCsvData(Complete(ParseResults(Header, [a, b, c], errors)));
      && loaded.Success?
      && loaded.value == [ToRecord(BuildRow(Header, a)), ToRecord(BuildRow(Header, b))]
      && FilterRecords(loaded.value, Criteria("JABAR", "", "")) == [loaded.value[0]]
  {
    ScenarioLoads(a, b, c, errors);
    ScenarioRegionFilter(a, b);
  }

  lemma ScenarioLoads(a: seq<string>, b: seq<string>, c: seq<string>, errors: seq<string>)
    requires |a| == |Header| && |b| == |Header| && |c| == |Header|
    requires a[1] != "" && a[4] == "6" && a[5] == "106"
    requires b[1] != "" && b[4] == "7" && b[5] == "112"
    requires c[4] == ""
    ensures LoadCsvData(Complete(ParseResults(Header, [a, b, c], errors)))
         == Success([ToRecord(BuildRow(Header, a)), ToRecord(BuildRow(Header, b))])
  {
    CoerceUnparseable("");
    NumeralCoordinates();
    GateUnderHeader(a);
    GateUnderHeader(b);
    GateUnderHeader(c);
    LoadThree(Header, a, b, c, errors);
  }

  lemma ScenarioRegionFilter(a: seq<string>, b: seq<string>)
    requires |a| == |Header| && |b| == |Header| && a[6] == "JABAR" && b[6] == "JATIM"
    ensures var records := [ToRecord(BuildRow(Header, a)), ToRecord(BuildRow(Header, b))];
      FilterRecords(records, Criteria("JABAR", "", "")) == [records[0]]
  {
    RegionUnderHeader(a);
    RegionUnderHeader(b);
    KeepFirstOfTwo([ToRecord(BuildRow(Header, a)), ToRecord(BuildRow(Header, b))], Criteria("JABAR", "", ""));
  }

  /** With any header, three lines of which only the first two pass the gate
      load as those two records, in order. */
  lemma LoadThree(h: seq<string>, a: seq<string>, b: seq<string>, c: seq<string>, errors: seq<string>)
    requires Keep(BuildRow(h, a)) && Keep(BuildRow(h, b)) && !Keep(BuildRow(h, c))
    ensures LoadCsvData(Complete(ParseResults(h, [a, b, c], errors)))
         == Success([ToRecord(BuildRow(h, a)), ToRecord(BuildRow(h, b))])
  {
    var p := ParseResults(h, [a, b, c], errors);
    ThreeRowsTransformed(p);
    LoadOfThreeRows(p, BuildRow(h, a), BuildRow(h, b), BuildRow(h, c));
  }

  lemma ThreeRowsTransformed(p: ParseResults)
    requires |p.rows| == 3
    ensures TransformedRows(p)
         == [BuildRow(p.headers, p.rows[0]), BuildRow(p.headers, p.rows[1]), BuildRow(p.headers, p.rows[2])]
  {
  }

  lemma LoadOfThreeRows(p: ParseResults, x: Row, y: Row, z: Row)
    requires TransformedRows(p) == [x, y, z] && Keep(x) && Keep(y) && !Keep(z)
    ensures LoadCsvData(Complete(p)) == Success([ToRecord(x), ToRecord(y)])
  {
    LoadedRows(p);
    FilterFirstTwoOfThree([x, y, z], Keep);
    assert [x, y, z][..2] == [x, y];
    ProjectPair(x, y);
  }

  lemma LoadedRows(p: ParseResults)
    ensures LoadCsvData(Complete(p)) == Success(Project(Sequences.Filter(TransformedRows(p), Keep)))
  {
  }

  lemma ProjectPair(x: Row, y: Row)
    ensures Project([x, y]) == [ToRecord(x), ToRecord(y)]
  {
  }

  lemma FilterFirstTwoOfThree<T(!new)>(s: seq<T>, keep: T -> bool)
    requires |s| == 3 && keep(s[0]) && keep(s[1]) && !keep(s[2])
    ensures Sequences.Filter(s, keep) == s[..2]
  {
    assert s[1..] == [s[1], s[2]] && [s[1], s[2]][1..] == [s[2]];
  }

  /** Under that header, the record's region is the line's last cell. */
  lemma RegionUnderHeader(cells: seq<string>)
    requires |cells| == |Header|
    ensures ToRecord(BuildRow(Header, cells)).region == cells[6]
  {
    ColumnValue(Header, cells, 6);
  }

  lemma KeepFirstOfTwo(records: seq<UsageRecord>, c: Criteria)
    requires |records| == 2 && Matches(records[0], c) && !Matches(records[1], c)
    ensures FilterRecords(records, c) == [records[0]]
  {
    assert records == [records[0]] + [records[1]];
    FilterRecordsAppend([records[0]], [records[1]], c);
    assert FilterRecords([records[1]], c) == [];
    assert FilterRecords([records[0]], c) == [records[0]];
  }

  /** The scenario's coordinate cells coerce to their numbers. */
  lemma NumeralCoordinates()
    ensures Coerce("6") == 6.0 && Coerce("106") == 106.0
    ensures Coerce("7") == 7.0 && Coerce("112") == 112.0
  {
    assert DecimalNumeral(6) == "6" && DecimalNumeral(106) == "106";
    assert DecimalNumeral(7) == "7" && DecimalNumeral(112) == "112";
    CoerceNumeral(6);
    CoerceNumeral(106);
    CoerceNumeral(7);
    CoerceNumeral(112);
  }

  /** Two records today and two yesterday, a day's records split off in order. */
  lemma TwoDaysSplit(a: UsageRecord, b: UsageRecord, c: UsageRecord, d: UsageRecord)
    requires a.eventDate == Today && b.eventDate == Today
    requires c.eventDate == Yesterday && d.eventDate == Yesterday
    ensures DayRecords([a, b, c, d], Today) == [a, b]
    ensures DayRecords([a, b, c, d], Yesterday) == [c, d]
  {
    assert [a, b, c, d] == [a, b] + [c, d];
    DayRecordsAppend([a, b], [c, d], Today);
    DayRecordsAppend([a, b], [c, d], Yesterday);
    DayRecordsAll([a, b], Today);
    DayRecordsNone([c, d], Today);
    DayRecordsNone([a, b], Yesterday);
    DayRecordsAll([c, d], Yesterday);
  }

  /** 1000 and 3000 bytes today against 2000 and 2000 yesterday: equal totals
      give a zero change, not the '0' of a missing yesterday. */
  lemma EqualDaysScenario(a: UsageRecord, b: UsageRecord, c: UsageRecord, d: UsageRecord)
    requires a.eventDate == Today && b.eventDate == Today
    requires c.eventDate == Yesterday && d.eventDate == Yesterday
    requires a.usage == Num(1000.0) && b.usage == Num(3000.0)
    requires c.usage == Num(2000.0) && d.usage == Num(2000.0)
    ensures TotalUsage(DayRecords([a, b, c, d], Today)) == 4000.0
    ensures TotalUsage(DayRecords([a, b, c, d], Yesterday)) == 4000.0
    ensures ProcessData(Success([a, b, c, d])).differencePercentage == Change(0.0)
  {
    TwoDaysSplit(a, b, c, d);
    assert [a, b][1..] == [b] && [c, d][1..] == [d];
    assert TotalUsage([b]) == 3000.0 && TotalUsage([d]) == 2000.0;
    assert TotalUsage([a, b]) == 4000.0 && TotalUsage([c, d]) == 4000.0;
  }

  /** "jak" finds a kelurahan "Jakarta Selatan" whatever the case. */
  lemma SearchScenario()
    ensures MatchesSearch(Sample("628111", InBilling, 1.0, Today, "Jakarta Selatan", "JABAR"), "jak")
  {
    assert ToLower("jak") == "jak";
    assert ToLower("Jakarta Selatan")[..3] == "jak";
  }

  /** "jak" misses a record whose id and location names hold no 'j' or 'J'. */
  lemma SearchMissScenario()
    ensures !MatchesSearch(UsageRecord("628111", InBilling, Num(1.0), "", Today, "", Num(1.0), Num(1.0),
                                       "", "", "Coblong", "Dago", "", "JABAR"), "jak")
  {
    MissingLetterMisses(UsageRecord("628111", InBilling, Num(1.0), "", Today, "", Num(1.0), Num(1.0),
                                    "", "", "Coblong", "Dago", "", "JABAR"), "jak", 'j');
  }
}

=== FILE: DataTable.dfy ===
/** The table view: its filtered rows, the usage cell's unit, the status
    badge, and the "Showing X to Y of N" pagination label. */
module DataTable {
  import opened JsNumbers
  import opened Units
  import opened Records
  import opened FilterStore
  import opened Filter

  /** The rows the table shows for a store state. */
  function TableRows(data: seq<UsageRecord>, s: FilterState): seq<UsageRecord> {
    FilterRecords(data, ViewCriteria(s))
  }

  /** The usage cell: a falsy usage counts as 0; at least one MiB is shown
      in MB, anything less in KB, and the shown amount scales back to the
      bytes exactly. */
  function UsageCell(usage: JsNumber): (d: Display)
    ensures Bytes(d) == OrZero(usage)
    ensures d.unit == MB <==> OrZero(usage) >= MiB
    ensures d.unit == KB <==> OrZero(usage) < MiB
  {
    var bytes := OrZero(usage);
    var mb := bytes / MiB;
    if mb >= 1.0 then Display(mb, MB) else Display(bytes / KiB, KB)
  }

  datatype Badge = BadgeSuccess | BadgeWarning | BadgeError | BadgeGhost

  /** The status column's badge; unknown statuses fall back to the ghost badge. */
  function StatusBadge(status: string): (b: Badge)
    ensures b == BadgeSuccess <==> status == InBilling
    ensures b == BadgeWarning <==> status == OutOfBilling
    ensures b == BadgeError <==> status == Suspended
    ensures b == BadgeGhost <==> status != InBilling && status != OutOfBilling && status != Suspended
  {
    if status == InBilling then BadgeSuccess
    else if status == OutOfBilling then BadgeWarning
    else if status == Suspended then BadgeError
    else BadgeGhost
  }

  /** Each of the three known statuses has its own badge. */
  lemma BadgesDistinguishKnownStatuses(s: string, t: string)
    requires StatusBadge(s) != BadgeGhost && StatusBadge(s) == StatusBadge(t)
    ensures s == t
  {
  }

  const DefaultPageSize: nat := 6

  /** "Showing `first` to `last` of `total` records". */
  datatype PageLabel = PageLabel(first: nat, last: nat, total: nat)

  function ShowingLabel(pageIndex: nat, pageSize: nat, total: nat): (l: PageLabel)
    ensures l.total == total
    ensures l.last <= total
    ensures l.first == pageIndex * pageSize + 1
    ensures l.last <= l.first - 1 + pageSize
    ensures l.first <= total ==> l.last - l.first + 1 == Min(pageSize, total - (l.first - 1))
  {
    PageLabel(pageIndex * pageSize + 1, Min((pageIndex + 1) * pageSize, total), total)
  }

  function Min(a: nat, b: nat): nat {
    if a < b then a else b
  }

  /** Consecutive pages tile the rows: after a full page the next label
      starts right after the previous one ends, so no row is skipped or
      shown twice. */
  lemma {:induction false} PagesTile(pageIndex: nat, pageSize: nat, total: nat)
    requires pageSize > 0 && (pageIndex + 1) * pageSize < total
    ensures ShowingLabel(pageIndex, pageSize, total).last - ShowingLabel(pageIndex, pageSize, total).first + 1 == pageSize
    ensures ShowingLabel(pageIndex + 1, pageSize, total).first == ShowingLabel(pageIndex, pageSize, total).last + 1
  {
    assert (pageIndex + 1) * pageSize == pageIndex * pageSize + pageSize;
  }

  /** The last page, `(total - 1) / pageSize`, ends at the last row. */
  lemma {:induction false} LastPageEndsAtTotal(pageSize: nat, total: nat)
    requires pageSize > 0 && total > 0
    ensures var l := ShowingLabel((total - 1) / pageSize, pageSize, total);
      l.first <= l.last == total
  {
    var p := (total - 1) / pageSize;
    var r := (total - 1) % pageSize;
    assert total - 1 == p * pageSize + r;
    assert (p + 1) * pageSize == p * pageSize + pageSize;
  }

  /** With the default six rows per page and 20 rows, the first page reads
      "1 to 6" and the fourth and last "19 to 20". */
  lemma DefaultPages()
    ensures ShowingLabel(0, DefaultPageSize, 20) == PageLabel(1, 6, 20)
    ensures ShowingLabel(3, DefaultPageSize, 20) == PageLabel(19, 20, 20)
  {
  }

  lemma EmptyTableLabel(pageSize: nat)
    ensures ShowingLabel(0, pageSize, 0) == PageLabel(1, 0, 0)
  {
  }
}

=== FILE: Filter.dfy ===
/** The record predicate shared by the table and the map: region, billing
    status and a case-insensitive search over the id and two location names,
    combined by AND. */
module Filter {
  import opened Sequences
  import opened Text
  import opened Records
  import opened FilterStore

  /** The three store fields the views read. */
  datatype Criteria = Criteria(category: string, status: string, search: string)

  const NoCriteria := Criteria("", "", "")

  /** The criteria a view reads from the store; `apn` and `mapType` are not among them. */
  function ViewCriteria(s: FilterState): (c: Criteria)
    ensures c.category == Read(s, Category) && c.status == Read(s, Status) && c.search == Read(s, Search)
  {
    Criteria(s.category, s.status, s.search)
  }

  /** An empty search matches; otherwise the lower-cased query must occur in
      the lower-cased id, kelurahan or kecamatan. */
  predicate MatchesSearch(r: UsageRecord, search: string) {
    || search == ""
    || Includes(ToLower(r.msisdn), ToLower(search))
    || Includes(ToLower(r.kelurahan), ToLower(search))
    || Includes(ToLower(r.kecamatan), ToLower(search))
  }

  predicate Matches(r: UsageRecord, c: Criteria) {
    && (c.category == "" || r.region == c.category)
    && (c.status == "" || r.billingStatus == c.status)
    && MatchesSearch(r, c.search)
  }

  /** The records a view shows: exactly the matching ones, in their order. */
  function FilterRecords(data: seq<UsageRecord>, c: Criteria): (r: seq<UsageRecord>)
    ensures IsSubsequence(r, data)
    ensures forall x :: x in r <==> x in data && Matches(x, c)
  {
    Filter(data, x => Matches(x, c))
  }

  /** A non-empty region or status criterion keeps only records carrying
      exactly that region or status. */
  lemma ShownRecordsMatchExactly(data: seq<UsageRecord>, c: Criteria, x: UsageRecord)
    requires x in FilterRecords(data, c)
    ensures c.category != "" ==> x.region == c.category
    ensures c.status != "" ==> x.billingStatus == c.status
    ensures x in data
  {
  }

  /** Filtering a concatenation filters each part. */
  lemma FilterRecordsAppend(a: seq<UsageRecord>, b: seq<UsageRecord>, c: Criteria)
    ensures FilterRecords(a + b, c) == FilterRecords(a, c) + FilterRecords(b, c)
  {
    FilterAppend(a, b, x => Matches(x, c));
  }

  /** With every criterion empty, nothing is filtered out. */
  lemma NoCriteriaKeepsAll(data: seq<UsageRecord>)
    ensures FilterRecords(data, NoCriteria) == data
  {
    FilterKeepsAll(data, x => Matches(x, NoCriteria));
  }

  /** Re-filtering a view with the same criteria changes nothing. */
  lemma FilterRecordsIdempotent(data: seq<UsageRecord>, c: Criteria)
    ensures FilterRecords(FilterRecords(data, c), c) == FilterRecords(data, c)
  {
    FilterIdempotent(data, x => Matches(x, c));
  }

  /** A non-empty search matches iff the lower-cased query occurs at some
      position of one of the three lower-cased fields. */
  lemma SearchOccurs(r: UsageRecord, search: string)
    requires search != ""
    ensures MatchesSearch(r, search) <==>
      || (exists i :: OccursAt(ToLower(r.msisdn), ToLower(search), i))
      || (exists i :: OccursAt(ToLower(r.kelurahan), ToLower(search), i))
      || (exists i :: OccursAt(ToLower(r.kecamatan), ToLower(search), i))
  {
    IncludesAt(ToLower(r.msisdn), ToLower(search));
    IncludesAt(ToLower(r.kelurahan), ToLower(search));
    IncludesAt(ToLower(r.kecamatan), ToLower(search));
  }

  /** The search ignores ASCII case in the query. */
  lemma SearchIgnoresCase(r: UsageRecord, search: string)
    ensures MatchesSearch(r, search) <==> MatchesSearch(r, ToLower(search))
  {
    ToLowerIdempotent(search);
  }

  /** Adding a criterion can only narrow the view: the narrower result is a
      subsequence of the wider one. */
  lemma {:induction false} NarrowingIsSubsequence(data: seq<UsageRecord>, c: Criteria, d: Criteria)
    requires forall x :: Matches(x, d) ==> Matches(x, c)
    ensures IsSubsequence(FilterRecords(data, d), FilterRecords(data, c))
    decreases |data|
  {
    if data != [] {
      NarrowingIsSubsequence(data[1..], c, d);
      var wide := FilterRecords(data[1..], c);
      var narrow := FilterRecords(data[1..], d);
      if Matches(data[0], d) {
        assert FilterRecords(data, d) == [data[0]] + narrow;
        assert FilterRecords(data, c) == [data[0]] + wide;
      } else if Matches(data[0], c) {
        assert FilterRecords(data, c) == [data[0]] + wide;
        SubsequenceOfTail(narrow, [data[0]] + wide);
      }
    }
  }

  /** A search whose first letter occurs in neither case in the id, the
      kelurahan or the kecamatan matches nothing. */
  lemma MissingLetterMisses(r: UsageRecord, search: string, c: char)
    requires 'a' <= c <= 'z' && search != [] && (search[0] == c || search[0] == UpperOf(c))
    requires c !in r.msisdn && UpperOf(c) !in r.msisdn
    requires c !in r.kelurahan && UpperOf(c) !in r.kelurahan
    requires c !in r.kecamatan && UpperOf(c) !in r.kecamatan
    ensures !MatchesSearch(r, search)
  {
    var p := ToLower(search);
    assert p[0] == c;
    LowerLacks(r.msisdn, c);
    LowerLacks(r.kelurahan, c);
    LowerLacks(r.kecamatan, c);
    MissingFirstChar(ToLower(r.msisdn), p);
    MissingFirstChar(ToLower(r.kelurahan), p);
    MissingFirstChar(ToLower(r.kecamatan), p);
  }

  /** The views follow the store: a category, status or search setter changes
      that one criterion, the APN and map-type setters change none, and
      `clearFilters` empties all three. */
  lemma ViewFollowsDispatch(s: FilterState, a: Action)
    ensures a.SetCategory? ==> ViewCriteria(Dispatch(s, a)) == ViewCriteria(s).(category := a.category)
    ensures a.SetStatus? ==> ViewCriteria(Dispatch(s, a)) == ViewCriteria(s).(status := a.status)
    ensures a.SetSearch? ==> ViewCriteria(Dispatch(s, a)) == ViewCriteria(s).(search := a.search)
    ensures a.SetApn? || a.SetMapType? ==> ViewCriteria(Dispatch(s, a)) == ViewCriteria(s)
    ensures a.ClearFilters? ==> ViewCriteria(Dispatch(s, a)) == NoCriteria
  {
  }
}

=== FILE: FilterStore.dfy ===
/** The filter store: five string fields, a setter for each, and
    `clearFilters`, as a reducer over actions. */
module FilterStore {

  datatype FilterState = FilterState(category: string, status: string, search: string, apn: string, mapType: string)

  /** The store's fields, to speak about "every other field". */
  datatype Field = Category | Status | Search | Apn | MapType

  function Read(s: FilterState, f: Field): string {
    match f
    case Category => s.category
    case Status => s.status
    case Search => s.search
    case Apn => s.apn
    case MapType => s.mapType
  }

  /** The state the store is created with. */
  const Initial := FilterState("", "", "", "", "Basic")

  /** The store's actions: one per setter, and `clearFilters`. */
  datatype Action =
    | SetCategory(category: string)
    | SetStatus(status: string)
    | SetSearch(search: string)
    | SetApn(apn: string)
    | SetMapType(mapType: string)
    | ClearFilters

  /** The field a setter writes, and the value it writes. */
  function Target(a: Action): Field
    requires !a.ClearFilters?
  {
    match a
    case SetCategory(_) => Category
    case SetStatus(_) => Status
    case SetSearch(_) => Search
    case SetApn(_) => Apn
    case SetMapType(_) => MapType
  }

  function Written(a: Action): string
    requires !a.ClearFilters?
  {
    match a
    case SetCategory(v) => v
    case SetStatus(v) => v
    case SetSearch(v) => v
    case SetApn(v) => v
    case SetMapType(v) => v
  }

  /** The store's response to an action: a setter writes its own field and
      nothing else; `clearFilters` restores the initial state. */
  function Dispatch(s: FilterState, a: Action): (r: FilterState)
    ensures a.ClearFilters? ==> r == Initial
    ensures !a.ClearFilters? ==> Read(r, Target(a)) == Written(a)
    ensures !a.ClearFilters? ==> forall f :: f != Target(a) ==> Read(r, f) == Read(s, f)
  {
    match a
    case SetCategory(v) => s.(category := v)
    case SetStatus(v) => s.(status := v)
    case SetSearch(v) => s.(search := v)
    case SetApn(v) => s.(apn := v)
    case SetMapType(v) => s.(mapType := v)
    case ClearFilters => Initial
  }

  /** The state after a sequence of actions. */
  function Run(s: FilterState, actions: seq<Action>): FilterState
    decreases |actions|
  {
    if actions == [] then s else Run(Dispatch(s, actions[0]), actions[1..])
  }

  /** A field's value after a sequence of actions, read off the actions
      alone: the last write to it, "" or "Basic" after the last clear, or
      the starting value. */
  function LastWrite(start: string, f: Field, actions: seq<Action>): string
    decreases |actions|
  {
    if actions == [] then start
    else
      var a := actions[|actions| - 1];
      if a.ClearFilters? then Read(Initial, f)
      else if Target(a) == f then Written(a)
      else LastWrite(start, f, actions[..|actions| - 1])
  }

  lemma {:induction false} RunSnoc(s: FilterState, actions: seq<Action>, a: Action)
    ensures Run(s, actions + [a]) == Dispatch(Run(s, actions), a)
    decreases |actions|
  {
    if actions == [] {
      assert actions + [a] == [a];
    } else {
      assert (actions + [a])[1..] == actions[1..] + [a];
      RunSnoc(Dispatch(s, actions[0]), actions[1..], a);
    }
  }

  /** Every field ends with its last write: the store keeps no other memory. */
  lemma {:induction false} RunIsLastWrite(s: FilterState, actions: seq<Action>, f: Field)
    ensures Read(Run(s, actions), f) == LastWrite(Read(s, f), f, actions)
    decreases |actions|
  {
    if actions != [] {
      var init := actions[..|actions| - 1];
      assert actions == init + [actions[|actions| - 1]];
      RunSnoc(s, init, actions[|actions| - 1]);
      RunIsLastWrite(s, init, f);
    }
  }

  /** `clearFilters` is idempotent. */
  lemma ClearIdempotent(s: FilterState)
    ensures Dispatch(Dispatch(s, ClearFilters), ClearFilters) == Dispatch(s, ClearFilters)
  {
  }

  /** Setting a field twice is setting it once to the second value. */
  lemma LastWriteWins(s: FilterState, a: Action, b: Action)
    requires !a.ClearFilters? && !b.ClearFilters? && Target(a) == Target(b)
    ensures Dispatch(Dispatch(s, a), b) == Dispatch(s, b)
  {
  }

  /** Setters of different fields commute. */
  lemma SettersCommute(s: FilterState, a: Action, b: Action)
    requires !a.ClearFilters? && !b.ClearFilters? && Target(a) != Target(b)
    ensures Dispatch(Dispatch(s, a), b) == Dispatch(Dispatch(s, b), a)
  {
  }
}

=== FILE: JsNumbers.dfy ===
/** JavaScript numbers as the dashboard reads them: truthiness, the `x || 0`
    idiom, and an ASCII model of `parseFloat` and `Number(string)`. */
module JsNumbers {

  /** A JavaScript number: NaN or a finite value. Infinities are not modelled. */
  datatype JsNumber = NaN | Num(v: real)

  /** JavaScript truthiness of a number: NaN, 0 and -0 are falsy. */
  predicate Truthy(n: JsNumber) {
    n.Num? && n.v != 0.0
  }

  /** The `n || 0` idiom. */
  function OrZero(n: JsNumber): (r: real)
    ensures r != 0.0 <==> Truthy(n)
    ensures Truthy(n) ==> n == Num(r)
  {
    if Truthy(n) then n.v else 0.0
  }

  /** Addition; NaN is absorbing. */
  function Add(a: JsNumber, b: JsNumber): (r: JsNumber)
    ensures r.NaN? <==> a.NaN? || b.NaN?
  {
    if a.Num? && b.Num? then Num(a.v + b.v) else NaN
  }

  predicate IsDigit(c: char) {
    '0' <= c <= '9'
  }

  /** ECMAScript's StrWhiteSpaceChar: the WhiteSpace code points (tab,
      vertical tab, form feed, the byte order mark and the space separators
      U+0020, U+00A0, U+1680, U+2000 to U+200A, U+202F, U+205F, U+3000) and
      the LineTerminators (line feed, carriage return, U+2028, U+2029). */
  predicate IsSpace(c: char) {
    var n := c as int;
    || 0x09 <= n <= 0x0D || n == 0x20 || n == 0xA0 || n == 0x1680
    || 0x2000 <= n <= 0x200A || n == 0x2028 || n == 0x2029 || n == 0x202F
    || n == 0x205F || n == 0x3000 || n == 0xFEFF
  }

  /** `s` with its leading white space removed. */
  function TrimStart(s: string): (r: string)
    ensures |r| <= |s| && r == s[|s| - |r|..]
    ensures r == [] || !IsSpace(r[0])
    ensures forall i :: 0 <= i < |s| - |r| ==> IsSpace(s[i])
  {
    if |s| > 0 && IsSpace(s[0]) then TrimStart(s[1..]) else s
  }

  /** `s` with its trailing white space removed. */
  function TrimEnd(s: string): (r: string)
    ensures |r| <= |s| && r == s[..|r|]
    ensures r == [] || !IsSpace(r[|r| - 1])
    ensures forall i :: |r| <= i < |s| ==> IsSpace(s[i])
  {
    if |s| > 0 && IsSpace(s[|s| - 1]) then TrimEnd(s[..|s| - 1]) else s
  }

  /** Length of the run of decimal digits that starts `s`. */
  function DigitRun(s: string): (k: nat)
    ensures k <= |s|
    ensures forall i :: 0 <= i < k ==> IsDigit(s[i])
    ensures k < |s| ==> !IsDigit(s[k])
  {
    if |s| > 0 && IsDigit(s[0]) then 1 + DigitRun(s[1..]) else 0
  }

  predicate AllDigits(d: string) {
    forall i :: 0 <= i < |d| ==> IsDigit(d[i])
  }

  /** The value of a decimal digit string, most significant digit first. */
  function DigitsValue(d: string): nat
    requires AllDigits(d)
  {
    if d == [] then 0 else DigitsValue(d[..|d| - 1]) * 10 + (d[|d| - 1] as int - '0' as int)
  }

  function Pow10(k: nat): (p: nat)
    ensures p >= 1
  {
    if k == 0 then 1 else 10 * Pow10(k - 1)
  }

  /** The longest decimal literal at the start of a string: its value and how
      many characters it spans. */
  datatype Scan = Scan(value: JsNumber, length: nat)

  /** Reads `[+|-] digits [. digits]` (at least one digit) from the start of `s`. */
  function ScanDecimal(s: string): (r: Scan)
    ensures r.length <= |s|
    ensures r.value.NaN? <==> r.length == 0
    ensures s != [] && IsDigit(s[0]) ==> r.length > 0
    ensures s == [] || !(IsDigit(s[0]) || s[0] == '.' || s[0] == '-' || s[0] == '+') ==> r.length == 0
  {
    var signed := |s| > 0 && (s[0] == '-' || s[0] == '+');
    var u := ScanUnsigned(if signed then s[1..] else s);
    if u.length == 0 then
      u
    else
      Scan(Num(if signed && s[0] == '-' then -u.value.v else u.value.v), (if signed then 1 else 0) + u.length)
  }

  /** The longest unsigned decimal literal (digits, then optionally a dot and
      more digits, with at least one digit) at the start of a string. */
  function ScanUnsigned(s: string): (r: Scan)
    ensures r.length <= |s|
    ensures r.value.NaN? <==> r.length == 0
    ensures s != [] && IsDigit(s[0]) ==> r.length > 0
    ensures s == [] || !(IsDigit(s[0]) || s[0] == '.') ==> r.length == 0
  {
    var k := DigitRun(s);
    if k < |s| && s[k] == '.' then
      var m := DigitRun(s[k + 1..]);
      if k + m == 0 then
        Scan(NaN, 0)
      else
        Scan(Num(DigitsValue(s[..k]) as real + DigitsValue(s[k + 1..][..m]) as real / Pow10(m) as real), k + 1 + m)
    else if k == 0 then
      Scan(NaN, 0)
    else
      Scan(Num(DigitsValue(s[..k]) as real), k)
  }

  function ParseFloat(s: string): (n: JsNumber)
    ensures n.NaN? <==> ScanDecimal(TrimStart(s)).length == 0
  {
    ScanDecimal(TrimStart(s)).value
  }

  /** JavaScript's `Number(s)` on a string, as `isNaN` applies it: blank is 0,
      otherwise the whole trimmed text must be a decimal literal. */
  function StringToNumber(s: string): (n: JsNumber)
    ensures TrimEnd(TrimStart(s)) == [] ==> n == Num(0.0)
  {
    var t := TrimEnd(TrimStart(s));
    if t == [] then Num(0.0)
    else
      var scan := ScanDecimal(t);
      if scan.length == |t| then scan.value else NaN
  }

  /** The decimal numeral of `n`, without leading zeros ("0" for zero). */
  function DecimalNumeral(n: nat): (d: string)
    ensures |d| > 0 && AllDigits(d)
  {
    if n < 10 then [('0' as int + n) as char]
    else DecimalNumeral(n / 10) + [('0' as int + n % 10) as char]
  }

  lemma {:induction false} DecimalNumeralValue(n: nat)
    ensures DigitsValue(DecimalNumeral(n)) == n
  {
    var d := DecimalNumeral(n);
    if n >= 10 {
      DecimalNumeralValue(n / 10);
      assert d[..|d| - 1] == DecimalNumeral(n / 10);
    }
  }

  lemma {:induction false} DigitRunOfDigits(d: string)
    requires AllDigits(d)
    ensures DigitRun(d) == |d|
  {
    if d != [] {
      DigitRunOfDigits(d[1..]);
    }
  }

  /** A non-empty digit string scans whole, to its own value. */
  lemma ScanOfDigits(d: string)
    requires d != [] && AllDigits(d)
    ensures ScanDecimal(d) == Scan(Num(DigitsValue(d) as real), |d|)
  {
    DigitRunOfDigits(d);
    ScanDigitsOnly(d, |d|);
    assert d[..|d|] == d;
    ScanUnsignedText(d);
  }

  /** A text made of its leading digit run alone scans whole, to the value of
      those digits. */
  lemma ScanDigitsOnly(body: string, k: nat)
    requires k == DigitRun(body) == |body| && k > 0
    ensures AllDigits(body[..k])
    ensures ScanUnsigned(body) == Scan(Num(DigitsValue(body[..k]) as real), k)
  {
    assert DigitRun([]) == 0;
  }

  /** Digit strings carry no white space to trim. */
  lemma TrimDigits(d: string)
    requires d != [] && AllDigits(d)
    ensures TrimStart(d) == d && TrimEnd(d) == d
  {
    assert !IsSpace(d[0]) && !IsSpace(d[|d| - 1]);
  }

  /** `parseFloat` and `Number` agree on a non-empty digit string: its value. */
  lemma ReadDigits(d: string)
    requires d != [] && AllDigits(d)
    ensures ParseFloat(d) == Num(DigitsValue(d) as real)
    ensures StringToNumber(d) == Num(DigitsValue(d) as real)
  {
    TrimDigits(d);
    ScanOfDigits(d);
  }

  /** `parseFloat` and `Number` both read back the decimal numeral of a natural number. */
  lemma ParseFloatOfNumeral(n: nat)
    ensures ParseFloat(DecimalNumeral(n)) == Num(n as real)
    ensures StringToNumber(DecimalNumeral(n)) == Num(n as real)
  {
    ReadDigits(DecimalNumeral(n));
    DecimalNumeralValue(n);
  }

  /** A digit run stops at the first non-digit. */
  lemma {:induction false} DigitRunBeforeStop(d: string, rest: string)
    requires AllDigits(d) && (rest == [] || !IsDigit(rest[0]))
    ensures DigitRun(d + rest) == |d|
    decreases |d|
  {
    if d == [] {
      assert d + rest == rest;
    } else {
      assert (d + rest)[1..] == d[1..] + rest;
      DigitRunBeforeStop(d[1..], rest);
    }
  }

  /** The digits of `whole.fraction` split at its one dot. */
  lemma FractionShape(whole: string, fraction: string)
    requires AllDigits(whole) && AllDigits(fraction)
    ensures var body := whole + "." + fraction;
      && DigitRun(body) == |whole| < |body| && body[|whole|] == '.'
      && body[..|whole|] == whole && body[|whole| + 1..] == fraction
  {
    var body := whole + "." + fraction;
    assert body == whole + ("." + fraction);
    DigitRunBeforeStop(whole, "." + fraction);
    assert body[..|whole|] == whole;
    assert body[|whole| + 1..] == fraction;
  }

  /** A text with a dot after its leading digit run scans to the value of
      the digits on both sides of the dot. */
  lemma ScanAroundDot(body: string, k: nat, m: nat)
    requires k == DigitRun(body) && k < |body| && body[k] == '.'
    requires m == DigitRun(body[k + 1..]) && k + m > 0
    ensures AllDigits(body[..k]) && AllDigits(body[k + 1..][..m])
    ensures ScanUnsigned(body) == Scan(Num(DigitsValue(body[..k]) as real + DigitsValue(body[k + 1..][..m]) as real / Pow10(m) as real), k + 1 + m)
  {
  }

  /** The value of the decimal text `whole.fraction`. */
  function FractionValue(whole: string, fraction: string): real
    requires AllDigits(whole) && AllDigits(fraction)
  {
    DigitsValue(whole) as real + DigitsValue(fraction) as real / Pow10(|fraction|) as real
  }

  /** `whole.fraction` scans whole, to the value of its digits. */
  lemma ScanFraction(whole: string, fraction: string)
    requires AllDigits(whole) && AllDigits(fraction) && |whole| + |fraction| > 0
    ensures ScanUnsigned(whole + "." + fraction) == Scan(Num(FractionValue(whole, fraction)), |whole + "." + fraction|)
  {
    var body := whole + "." + fraction;
    FractionShape(whole, fraction);
    var k := |whole|;
    assert DigitRun(body) == k && body[k] == '.';
    assert body[k + 1..] == fraction;
    DigitRunOfDigits(fraction);
    ScanAroundDot(body, k, |fraction|);
    assert body[..k] == whole;
    assert body[k + 1..][..|fraction|] == fraction;
    var r := ScanUnsigned(body);
    assert r.value == Num(FractionValue(whole, fraction));
    assert r.length == |body|;
  }

  /** Without a sign a text scans as an unsigned literal. */
  lemma ScanUnsignedText(s: string)
    requires s == [] || (s[0] != '-' && s[0] != '+')
    ensures ScanDecimal(s) == ScanUnsigned(s)
  {
  }

  /** After a leading minus sign a text scans as the negated literal that
      follows, one character longer. */
  lemma ScanMinus(s: string)
    requires s != [] && s[0] == '-'
    ensures var u := ScanUnsigned(s[1..]);
      ScanDecimal(s) == if u.length == 0 then u else Scan(Num(-u.value.v), u.length + 1)
  {
  }

  /** A text with a minus sign in front when `negative` holds. */
  function Signed(negative: bool, body: string): string {
    (if negative then "-" else "") + body
  }

  /** A text that scans whole as an unsigned literal still scans whole with
      an optional minus sign in front, which negates its value. */
  lemma SignWhole(negative: bool, body: string, v: real)
    requires body != [] && body[0] != '-' && body[0] != '+'
    requires ScanUnsigned(body) == Scan(Num(v), |body|)
    ensures ScanDecimal(Signed(negative, body)) == Scan(Num(if negative then -v else v), |Signed(negative, body)|)
  {
    var s := Signed(negative, body);
    if negative {
      assert s[0] == '-' && s[1..] == body;
      ScanMinus(s);
    } else {
      assert s == body;
      ScanUnsignedText(s);
    }
  }

  /** `whole.fraction` starts with a digit or its dot and ends with a digit
      or its dot: no sign in front, no white space at either end. */
  lemma FractionEnds(whole: string, fraction: string)
    requires AllDigits(whole) && AllDigits(fraction)
    ensures (whole + "." + fraction)[0] != '-' && (whole + "." + fraction)[0] != '+'
    ensures !IsSpace((whole + "." + fraction)[0])
    ensures !IsSpace((whole + "." + fraction)[|whole| + |fraction|])
  {
    var body := whole + "." + fraction;
    if whole != [] {
      assert body[0] == whole[0];
    } else {
      assert body[0] == '.';
    }
    if fraction != [] {
      assert body[|body| - 1] == fraction[|fraction| - 1];
    } else {
      assert body[|body| - 1] == '.';
    }
  }

  /** `body` is an unsigned literal without white space at either end that
      scans whole, to `v`. */
  predicate WholeLiteral(body: string, v: real) {
    && body != [] && body[0] != '-' && body[0] != '+'
    && !IsSpace(body[0]) && !IsSpace(body[|body| - 1])
    && ScanUnsigned(body) == Scan(Num(v), |body|)
  }

  /** `whole.fraction` is an unsigned literal with no white space at either
      end that scans whole, to the value of its digits. */
  lemma FractionLiteral(whole: string, fraction: string)
    requires AllDigits(whole) && AllDigits(fraction) && |whole| + |fraction| > 0
    ensures WholeLiteral(whole + "." + fraction, FractionValue(whole, fraction))
  {
    ScanFraction(whole, fraction);
    FractionEnds(whole, fraction);
  }

  /** A text that scans whole and has no white space at either end reads,
      by `parseFloat` and by `Number`, as the value it scans to. */
  lemma ReadWhole(s: string, v: real)
    requires s != [] && !IsSpace(s[0]) && !IsSpace(s[|s| - 1])
    requires ScanDecimal(s) == Scan(Num(v), |s|)
    ensures ParseFloat(s) == Num(v) && StringToNumber(s) == Num(v)
  {
    assert TrimStart(s) == s;
    assert TrimEnd(s) == s;
  }

  /** An unsigned literal with no white space at either end reads, with an
      optional minus sign in front, as its value, negated after the sign. */
  lemma ReadSignedWhole(negative: bool, body: string, v: real)
    requires WholeLiteral(body, v)
    ensures ParseFloat(Signed(negative, body)) == Num(if negative then -v else v)
    ensures StringToNumber(Signed(negative, body)) == Num(if negative then -v else v)
  {
    var s := Signed(negative, body);
    SignWhole(negative, body, v);
    assert s[|s| - 1] == body[|body| - 1];
    assert s[0] == '-' || s[0] == body[0];
    ReadWhole(s, if negative then -v else v);
  }
}

=== FILE: MapView.dfy ===
/** The map view: its markers (the same filter as the table), the initial
    centre, and each marker's size, colour and label. */
module MapView {
  import opened Wrappers
  import opened JsNumbers
  import opened Units
  import opened Records
  import opened FilterStore
  import opened Filter
  import opened DataTable

  /** The records the map draws, filtered by its own pass over the data. */
  method VisibleMarkers(data: seq<UsageRecord>, s: FilterState) returns (shown: seq<UsageRecord>)
    ensures shown == TableRows(data, s)
  {
    var c := ViewCriteria(s);
    shown := [];
    var i := 0;
    while i < |data|
      invariant i <= |data|
      invariant shown == FilterRecords(data[..i], c)
    {
      assert data[..i + 1] == data[..i] + [data[i]];
      FilterRecordsAppend(data[..i], [data[i]], c);
      if Matches(data[i], c) {
        shown := shown + [data[i]];
      }
      i := i + 1;
    }
    assert data[..i] == data;
  }

  datatype LatLng = LatLng(lat: JsNumber, lng: JsNumber)

  /** Jakarta, used when no marker is visible. */
  const DefaultCenter := LatLng(Num(-6.2088), Num(106.8456))

  /** `rows.reduce((sum, r) => sum + coordinate(r), 0)`. */
  function SumBy(rows: seq<UsageRecord>, coordinate: UsageRecord -> JsNumber): JsNumber {
    if rows == [] then Num(0.0)
    else Add(SumBy(rows[..|rows| - 1], coordinate), coordinate(rows[|rows| - 1]))
  }

  function Mean(rows: seq<UsageRecord>, coordinate: UsageRecord -> JsNumber): JsNumber
    requires rows != []
  {
    var sum := SumBy(rows, coordinate);
    if sum.Num? then Num(sum.v / |rows| as real) else NaN
  }

  /** The initial view centre: the default for an empty map, otherwise the
      mean latitude and longitude of the markers. */
  function MapCenter(rows: seq<UsageRecord>): (c: LatLng)
    ensures rows == [] ==> c == DefaultCenter
  {
    if rows == [] then DefaultCenter
    else LatLng(Mean(rows, Latitude), Mean(rows, Longitude))
  }

  function Latitude(r: UsageRecord): JsNumber {
    r.latitude
  }

  function Longitude(r: UsageRecord): JsNumber {
    r.longitude
  }

  /** When every marker lies in a box, the centre is a finite point of that box. */
  lemma CenterWithinBox(rows: seq<UsageRecord>, south: real, north: real, west: real, east: real)
    requires rows != []
    requires forall r :: r in rows ==> r.latitude.Num? && south <= r.latitude.v <= north
    requires forall r :: r in rows ==> r.longitude.Num? && west <= r.longitude.v <= east
    ensures MapCenter(rows).lat.Num? && south <= MapCenter(rows).lat.v <= north
    ensures MapCenter(rows).lng.Num? && west <= MapCenter(rows).lng.v <= east
  {
    MeanOfBounded(rows, Latitude, south, north);
    MeanOfBounded(rows, Longitude, west, east);
  }

  /** `x` added to itself `n` times. */
  function Repeat(n: nat, x: real): real {
    if n == 0 then 0.0 else Repeat(n - 1, x) + x
  }

  lemma {:induction false} RepeatIsProduct(n: nat, x: real)
    ensures Repeat(n, x) == n as real * x
  {
    if n > 0 {
      RepeatIsProduct(n - 1, x);
      assert n as real * x == (n - 1) as real * x + x;
    }
  }

  lemma {:induction false} SumOfBounded(rows: seq<UsageRecord>, coordinate: UsageRecord -> JsNumber, lo: real, hi: real)
    requires forall r :: r in rows ==> coordinate(r).Num? && lo <= coordinate(r).v <= hi
    ensures SumBy(rows, coordinate).Num?
    ensures Repeat(|rows|, lo) <= SumBy(rows, coordinate).v <= Repeat(|rows|, hi)
    decreases |rows|
  {
    if rows != [] {
      var init := rows[..|rows| - 1];
      assert forall r :: r in init ==> r in rows;
      assert rows[|rows| - 1] in rows;
      SumOfBounded(init, coordinate, lo, hi);
    }
  }

  lemma QuotientBounds(sum: real, n: real, lo: real, hi: real)
    requires n > 0.0 && n * lo <= sum <= n * hi
    ensures lo <= sum / n <= hi
  {
  }

  /** The mean of coordinates within [lo, hi] lies within [lo, hi]. */
  lemma MeanOfBounded(rows: seq<UsageRecord>, coordinate: UsageRecord -> JsNumber, lo: real, hi: real)
    requires rows != []
    requires forall r :: r in rows ==> coordinate(r).Num? && lo <= coordinate(r).v <= hi
    ensures Mean(rows, coordinate).Num? && lo <= Mean(rows, coordinate).v <= hi
  {
    var sum, n := SumBy(rows, coordinate), |rows|;
    SumOfBounded(rows, coordinate, lo, hi);
    RepeatIsProduct(n, lo);
    RepeatIsProduct(n, hi);
    assert n as real * lo <= sum.v <= n as real * hi;
    QuotientBounds(sum.v, n as real, lo, hi);
  }

  /** `Math.max(...rows.map(r => r.usage || 0))`; None stands for the
      `-Infinity` of an empty list. */
  function MaxUsage(rows: seq<UsageRecord>): (m: Option<real>)
    ensures m.None? <==> rows == []
    ensures m.Some? ==> forall r :: r in rows ==> OrZero(r.usage) <= m.value
    ensures m.Some? ==> exists r :: r in rows && OrZero(r.usage) == m.value
  {
    if rows == [] then None
    else
      var rest := MaxUsage(rows[1..]);
      var u := OrZero(rows[0].usage);
      assert forall r :: r in rows ==> r == rows[0] || r in rows[1..];
      if rest.None? || u >= rest.value then Some(u) else rest
  }

  const MinSize: real := 15.0
  const MaxSize: real := 45.0

  /** A marker's diameter: the minimum for a falsy or non-positive usage or a
      zero maximum, otherwise scaled linearly by usage over the maximum. An
      empty list's maximum is `-Infinity`, and a positive usage divided by it
      is -0, so that case also gives the minimum. */
  function MarkerSize(usage: JsNumber, rows: seq<UsageRecord>): (size: real)
    ensures !Truthy(usage) || usage.v <= 0.0 ==> size == MinSize
  {
    if !Truthy(usage) || usage.v <= 0.0 then MinSize
    else
      match MaxUsage(rows)
      case None => MinSize
      case Some(m) => if m == 0.0 then MinSize else MinSize + usage.v / m * (MaxSize - MinSize)
  }

  lemma RatioAtMostOne(u: real, m: real)
    requires 0.0 < u <= m
    ensures 0.0 < u / m <= 1.0
    ensures u / m == 1.0 <==> u == m
  {
  }

  /** A drawn marker's size lies in [15, 45]: exactly 15 when its usage is
      not positive, exactly 45 when its usage is the largest and positive. */
  lemma MarkerSizeBounds(r: UsageRecord, rows: seq<UsageRecord>)
    requires r in rows
    ensures MinSize <= MarkerSize(r.usage, rows) <= MaxSize
    ensures MarkerSize(r.usage, rows) == MinSize <==> OrZero(r.usage) <= 0.0
    ensures MarkerSize(r.usage, rows) == MaxSize <==> 0.0 < OrZero(r.usage) == MaxUsage(rows).value
  {
    if Truthy(r.usage) && r.usage.v > 0.0 {
      RatioAtMostOne(r.usage.v, MaxUsage(rows).value);
    }
  }

  /** Above the minimum, drawn markers grow in proportion to their usage:
      the extra size over the minimum is usage times the same factor for
      every positive marker. */
  lemma MarkerSizeProportional(a: UsageRecord, b: UsageRecord, rows: seq<UsageRecord>)
    requires a in rows && b in rows
    requires OrZero(a.usage) > 0.0 && OrZero(b.usage) > 0.0
    ensures (MarkerSize(a.usage, rows) - MinSize) * OrZero(b.usage)
         == (MarkerSize(b.usage, rows) - MinSize) * OrZero(a.usage)
  {
    var m := MaxUsage(rows).value;
    var ua, ub := OrZero(a.usage), OrZero(b.usage);
    assert MarkerSize(a.usage, rows) - MinSize == ua / m * (MaxSize - MinSize);
    assert MarkerSize(b.usage, rows) - MinSize == ub / m * (MaxSize - MinSize);
    ScaledCross(ua, ub, m, MaxSize - MinSize);
  }

  lemma ScaledCross(ua: real, ub: real, m: real, k: real)
    requires m > 0.0
    ensures ua / m * k * ub == ub / m * k * ua
  {
  }

  lemma RatioMonotone(a: real, b: real, m: real)
    requires 0.0 < a <= b && m > 0.0
    ensures a / m <= b / m
  {
  }

  /** Among drawn markers, more usage never means a smaller marker. */
  lemma MarkerSizeMonotone(a: UsageRecord, b: UsageRecord, rows: seq<UsageRecord>)
    requires a in rows && b in rows
    requires OrZero(a.usage) <= OrZero(b.usage)
    ensures MarkerSize(a.usage, rows) <= MarkerSize(b.usage, rows)
  {
    MarkerSizeBounds(b, rows);
    if OrZero(a.usage) > 0.0 {
      RatioMonotone(a.usage.v, b.usage.v, MaxUsage(rows).value);
    }
  }

  const Green := "#10b981"
  const Yellow := "#f59e0b"
  const Red := "#ef4444"
  const Gray := "#6b7280"

  /** The marker fill colour for a billing status. */
  function MarkerColor(status: string): (colour: string)
    ensures colour == Green <==> status == InBilling
    ensures colour == Yellow <==> status == OutOfBilling
    ensures colour == Red <==> status == Suspended
    ensures colour == Gray <==> status != InBilling && status != OutOfBilling && status != Suspended
  {
    if status == InBilling then Green
    else if status == OutOfBilling then Yellow
    else if status == Suspended then Red
    else Gray
  }

  /** The map's colours and the table's badges group statuses the same way. */
  lemma ColourAgreesWithBadge(s: string, t: string)
    ensures MarkerColor(s) == MarkerColor(t) <==> StatusBadge(s) == StatusBadge(t)
  {
  }

  datatype MarkerLabel = ZeroLabel | AmountLabel(d: Display)

  /** The text inside a marker: "0" for a falsy usage, MB from one MiB up,
      KB below; the amount scales back to the usage. */
  function MarkerText(usage: JsNumber): (l: MarkerLabel)
    ensures l.ZeroLabel? <==> !Truthy(usage)
    ensures l.AmountLabel? ==> Bytes(l.d) == usage.v
    ensures l.AmountLabel? ==> (l.d.unit == MB <==> usage.v >= MiB) && (l.d.unit == KB <==> usage.v < MiB)
  {
    if !Truthy(usage) then ZeroLabel
    else if usage.v >= MiB then AmountLabel(Display(usage.v / MiB, MB))
    else AmountLabel(Display(usage.v / KiB, KB))
  }

  /** For a truthy usage the marker shows the same amount and unit as the
      table's usage cell; they differ only in the number of decimals. */
  lemma MarkerTextAgreesWithTable(usage: JsNumber)
    requires Truthy(usage)
    ensures MarkerText(usage) == AmountLabel(UsageCell(usage))
  {
  }
}

=== FILE: Overview.dfy ===
/** The overview panel: today's and yesterday's usage totals, the day-over-day
    percentage, the per-status counts of today's records, the unit chosen for
    a byte total, and the trend icon. */
module Overview {
  import opened Wrappers
  import opened JsNumbers
  import opened Sequences
  import opened Units
  import opened Records

  const Today := "2025-08-04"
  const Yesterday := "2025-08-03"

  /** The records dated `date`, in order. */
  function DayRecords(records: seq<UsageRecord>, date: string): (r: seq<UsageRecord>)
    ensures forall x :: x in r <==> x in records && x.eventDate == date
  {
    Filter(records, (x: UsageRecord) => x.eventDate == date)
  }

  /** The usage of `rows` added up, a falsy usage counting as 0. */
  function TotalUsage(rows: seq<UsageRecord>): real {
    if rows == [] then 0.0 else OrZero(rows[0].usage) + TotalUsage(rows[1..])
  }

  lemma {:induction false} TotalUsageAppend(a: seq<UsageRecord>, b: seq<UsageRecord>)
    ensures TotalUsage(a + b) == TotalUsage(a) + TotalUsage(b)
    decreases |a|
  {
    if a == [] {
      assert a + b == b;
    } else {
      assert (a + b)[1..] == a[1..] + b;
      TotalUsageAppend(a[1..], b);
    }
  }

  /** Selecting one day's records distributes over concatenation. */
  lemma DayRecordsAppend(a: seq<UsageRecord>, b: seq<UsageRecord>, date: string)
    ensures DayRecords(a + b, date) == DayRecords(a, date) + DayRecords(b, date)
  {
    FilterAppend(a, b, (x: UsageRecord) => x.eventDate == date);
  }

  /** Records all dated `date` are all selected, in order. */
  lemma DayRecordsAll(records: seq<UsageRecord>, date: string)
    requires forall x :: x in records ==> x.eventDate == date
    ensures DayRecords(records, date) == records
  {
    FilterKeepsAll(records, (x: UsageRecord) => x.eventDate == date);
  }

  /** Records none of which is dated `date` select nothing. */
  lemma DayRecordsNone(records: seq<UsageRecord>, date: string)
    requires forall x :: x in records ==> x.eventDate != date
    ensures DayRecords(records, date) == []
  {
  }

  /** Extending the records by one adds that record's usage to its day's total. */
  lemma DayTotalStep(prefix: seq<UsageRecord>, x: UsageRecord, date: string)
    ensures TotalUsage(DayRecords(prefix + [x], date))
         == TotalUsage(DayRecords(prefix, date)) + (if x.eventDate == date then OrZero(x.usage) else 0.0)
  {
    DayRecordsAppend(prefix, [x], date);
    TotalUsageAppend(DayRecords(prefix, date), DayRecords([x], date));
    if x.eventDate == date {
      DayRecordsAll([x], date);
    } else {
      DayRecordsNone([x], date);
    }
  }

  /** The filter-then-reduce of the panel as one left-to-right pass: the sum
      of the usage of the records dated `date`. */
  method DayTotal(records: seq<UsageRecord>, date: string) returns (total: real)
    ensures total == TotalUsage(DayRecords(records, date))
  {
    total := 0.0;
    var i := 0;
    while i < |records|
      invariant i <= |records|
      invariant total == TotalUsage(DayRecords(records[..i], date))
    {
      assert records[..i + 1] == records[..i] + [records[i]];
      DayTotalStep(records[..i], records[i], date);
      if records[i].eventDate == date {
        total := total + OrZero(records[i].usage);
      }
      i := i + 1;
    }
    assert records[..i] == records;
  }

  /** With no negative usage, a total is never negative. */
  lemma {:induction false} TotalUsageNonNegative(rows: seq<UsageRecord>)
    requires forall r :: r in rows ==> OrZero(r.usage) >= 0.0
    ensures TotalUsage(rows) >= 0.0
    decreases |rows|
  {
    if rows != [] {
      assert rows[0] in rows;
      assert forall r :: r in rows[1..] ==> r in rows;
      TotalUsageNonNegative(rows[1..]);
    }
  }

  /** The day-over-day change: '0' unless yesterday's total is positive. */
  datatype Percent = ZeroPercent | Change(value: real)

  /** A reported change grows `yesterday` into `today`. */
  predicate GrowsInto(yesterday: real, p: Percent, today: real) {
    p.Change? ==> yesterday + yesterday * p.value / 100.0 == today
  }

  function PercentChange(today: real, yesterday: real): (p: Percent)
    ensures !(yesterday > 0.0) <==> p == ZeroPercent
    ensures GrowsInto(yesterday, p, today)
  {
    if yesterday > 0.0 then Change((today - yesterday) / yesterday * 100.0) else ZeroPercent
  }

  /** A reported change has the sign of today minus yesterday. */
  lemma PercentChangeSign(today: real, yesterday: real)
    requires yesterday > 0.0
    ensures PercentChange(today, yesterday).value > 0.0 <==> today > yesterday
    ensures PercentChange(today, yesterday).value == 0.0 <==> today == yesterday
  {
  }

  /** How many of `rows` carry exactly `status`. */
  function CountStatus(rows: seq<UsageRecord>, status: string): nat {
    |Filter(rows, (x: UsageRecord) => x.billingStatus == status)|
  }

  datatype StatusCounts = StatusCounts(inBilling: nat, inTesting: nat, suspended: nat, retired: nat)

  function StatusCountsOf(rows: seq<UsageRecord>): StatusCounts {
    StatusCounts(CountStatus(rows, InBilling), CountStatus(rows, InTesting),
                 CountStatus(rows, Suspended), CountStatus(rows, Retired))
  }

  lemma CountStatusAppend(a: seq<UsageRecord>, b: seq<UsageRecord>, status: string)
    ensures CountStatus(a + b, status) == CountStatus(a, status) + CountStatus(b, status)
  {
    FilterAppend(a, b, (x: UsageRecord) => x.billingStatus == status);
  }

  function Bump(b: bool): nat {
    if b then 1 else 0
  }

  lemma CountsStep(prefix: seq<UsageRecord>, r: UsageRecord)
    ensures var c, s := StatusCountsOf(prefix), r.billingStatus;
      StatusCountsOf(prefix + [r]) == StatusCounts(
        c.inBilling + Bump(s == InBilling), c.inTesting + Bump(s == InTesting),
        c.suspended + Bump(s == Suspended), c.retired + Bump(s == Retired))
  {
    CountStatusAppend(prefix, [r], InBilling);
    CountStatusAppend(prefix, [r], InTesting);
    CountStatusAppend(prefix, [r], Suspended);
    CountStatusAppend(prefix, [r], Retired);
  }

  /** The reduce callback with its `switch`: the counter named by the
      record's status goes up by one; any other status changes nothing. */
  function Tally(counts: StatusCounts, r: UsageRecord): (next: StatusCounts)
    ensures var s := r.billingStatus;
      next == StatusCounts(
        counts.inBilling + Bump(s == InBilling), counts.inTesting + Bump(s == InTesting),
        counts.suspended + Bump(s == Suspended), counts.retired + Bump(s == Retired))
  {
    match r.billingStatus
    case "IN-BILLING" => counts.(inBilling := counts.inBilling + 1)
    case "IN-TESTING" => counts.(inTesting := counts.inTesting + 1)
    case "SUSPENDED" => counts.(suspended := counts.suspended + 1)
    case "RETIRED" => counts.(retired := counts.retired + 1)
    case _ => counts
  }

  /** The panel's reduce over today's records: each counter ends as the
      number of records with exactly that status. */
  method CountStatuses(rows: seq<UsageRecord>) returns (counts: StatusCounts)
    ensures counts == StatusCountsOf(rows)
  {
    counts := StatusCounts(0, 0, 0, 0);
    var i := 0;
    while i < |rows|
      invariant i <= |rows|
      invariant counts == TallyAll(rows[..i])
    {
      assert rows[..i + 1][..i] == rows[..i];
      counts := Tally(counts, rows[i]);
      i := i + 1;
    }
    assert rows[..i] == rows;
  }

  /** The reduce itself: `Tally` folded over the rows from zero counters.
      Its result is the per-status count of the rows. */
  function TallyAll(rows: seq<UsageRecord>): (counts: StatusCounts)
    ensures counts == StatusCountsOf(rows)
    decreases |rows|
  {
    if rows == [] then StatusCounts(0, 0, 0, 0)
    else
      var prefix, last := rows[..|rows| - 1], rows[|rows| - 1];
      assert rows == prefix + [last];
      CountsStep(prefix, last);
      Tally(TallyAll(prefix), last)
  }

  predicate KnownStatus(status: string) {
    status == InBilling || status == InTesting || status == Suspended || status == Retired
  }

  function CountSum(c: StatusCounts): nat {
    c.inBilling + c.inTesting + c.suspended + c.retired
  }

  /** The four counters never add up to more than the records counted, and
      add up to exactly that many iff every status is one of the four. */
  lemma {:induction false} CountsBounded(rows: seq<UsageRecord>)
    ensures CountSum(StatusCountsOf(rows)) <= |rows|
    ensures CountSum(StatusCountsOf(rows)) == |rows| <==> forall r :: r in rows ==> KnownStatus(r.billingStatus)
    decreases |rows|
  {
    if rows != [] {
      CountsBounded(rows[1..]);
      assert rows == [rows[0]] + rows[1..];
      CountSumCons(rows[0], rows[1..]);
      assert forall r :: r in rows <==> r == rows[0] || r in rows[1..];
    }
  }

  /** A record in front adds one to the sum iff its status is one of the four. */
  lemma CountSumCons(r: UsageRecord, rest: seq<UsageRecord>)
    ensures CountSum(StatusCountsOf([r] + rest)) == CountSum(StatusCountsOf(rest)) + Bump(KnownStatus(r.billingStatus))
  {
    CountStatusAppend([r], rest, InBilling);
    CountStatusAppend([r], rest, InTesting);
    CountStatusAppend([r], rest, Suspended);
    CountStatusAppend([r], rest, Retired);
  }

  /** `formatDataUsage`: MB below one GiB, GB below 1000 GiB, TB from there;
      the amount scales back to the bytes exactly. The GB/TB threshold is
      1000 GiB while a TB is 1024 GiB, as written. */
  function FormatDataUsage(bytes: real): (d: Display)
    ensures Labels(d, bytes)
  {
    if bytes < GiB then Display(bytes / MiB, MB)
    else if bytes < 1000.0 * GiB then Display(bytes / GiB, GB)
    else Display(bytes / TiB, TB)
  }

  /** `d` is the label `formatDataUsage` gives `bytes`: it scales back to
      the bytes, in MB below one GiB, in GB below 1000 GiB and in TB from
      there. No other unit is used. */
  predicate Labels(d: Display, bytes: real) {
    && Bytes(d) == bytes
    && (d.unit == MB <==> bytes < GiB)
    && (d.unit == GB <==> GiB <= bytes < 1000.0 * GiB)
    && (d.unit == TB <==> 1000.0 * GiB <= bytes)
  }

  /** Exactly one GiB is shown in GB; 1023 MiB is shown in MB. */
  lemma FormatBoundaries()
    ensures FormatDataUsage(1073741824.0) == Display(1.0, GB)
    ensures FormatDataUsage(1023.0 * 1048576.0).unit == MB
  {
  }

  /** At the GB/TB threshold the amount drops below one: 1000 GiB shows as
      1000/1024 TB. */
  lemma FormatMixedRadix()
    ensures FormatDataUsage(1000.0 * GiB) == Display(1000.0 / 1024.0, TB)
    ensures FormatDataUsage(999.0 * GiB) == Display(999.0, GB)
  {
  }

  datatype Trend = Bullish | Bearish

  /** `parseFloat(x.toFixed(2))`: `x` rounded to two decimals, a half rounded
      away from zero. */
  function Fixed2(x: real): (r: real)
    ensures (100.0 * r).Floor as real == 100.0 * r
    ensures -0.005 <= r - x <= 0.005
    ensures x >= 0.0 ==> -0.005 < r - x
    ensures x < 0.0 ==> r - x < 0.005
    ensures x >= 0.0 ==> r >= 0.0
    ensures x <= 0.0 ==> r <= 0.0
  {
    if x >= 0.0 then
      var k := (100.0 * x + 0.5).Floor;
      assert 100.0 * (k as real / 100.0) == k as real;
      k as real / 100.0
    else
      var k := (-100.0 * x + 0.5).Floor;
      assert 100.0 * -(k as real / 100.0) == -k as real;
      -(k as real / 100.0)
  }

  /** Rounding to two decimals never reverses an order. */
  lemma Fixed2Monotone(a: real, b: real)
    requires a <= b
    ensures Fixed2(a) <= Fixed2(b)
  {
    if 0.0 <= a {
      FloorMonotone(100.0 * a + 0.5, 100.0 * b + 0.5);
    } else if b < 0.0 {
      FloorMonotone(-100.0 * b + 0.5, -100.0 * a + 0.5);
    }
  }

  lemma FloorMonotone(x: real, y: real)
    requires x <= y
    ensures x.Floor <= y.Floor
  {
    assert x.Floor as real <= x && y < y.Floor as real + 1.0;
  }

  /** `getDynamicIcons` as written: `parseFloat` of the two formatted labels
      reads back only their two-decimal numbers, so the units are ignored
      and amounts that round alike tie. */
  function TrendIconAsWritten(totalUsage: Display, lastDayUsage: Display): (t: Trend)
    ensures t == Bullish <==> Fixed2(totalUsage.amount) > Fixed2(lastDayUsage.amount)
  {
    if Fixed2(totalUsage.amount) > Fixed2(lastDayUsage.amount) then Bullish else Bearish
  }

  /** A smaller total today can show the upward icon, and a larger one the
      downward icon, once the two totals are shown in different units. */
  lemma TrendAsWrittenIgnoresUnits()
    ensures var today, yesterday := 500.0 * MiB, 2.0 * GiB;
      today < yesterday && TrendIconAsWritten(FormatDataUsage(today), FormatDataUsage(yesterday)) == Bullish
    ensures var today, yesterday := 1000.0 * GiB, 999.0 * GiB;
      today > yesterday && TrendIconAsWritten(FormatDataUsage(today), FormatDataUsage(yesterday)) == Bearish
  {
    assert FormatDataUsage(500.0 * MiB) == Display(500.0, MB);
    assert FormatDataUsage(2.0 * GiB) == Display(2.0, GB);
    assert Fixed2(500.0) == 500.0 && Fixed2(2.0) == 2.0;
    assert FormatDataUsage(1000.0 * GiB) == Display(0.9765625, TB);
    assert FormatDataUsage(999.0 * GiB) == Display(999.0, GB);
    assert Fixed2(0.9765625) == 0.98 && Fixed2(999.0) == 999.0;
  }

  /** Within one unit, totals that round to the same label tie: 1.004 GiB
      against 1.001 GiB both read "1.00 GB", and the icon points down. */
  lemma TrendAsWrittenRoundsTies()
    ensures var today, yesterday := 1.004 * GiB, 1.001 * GiB;
      today > yesterday && TrendIconAsWritten(FormatDataUsage(today), FormatDataUsage(yesterday)) == Bearish
  {
    assert FormatDataUsage(1.004 * GiB) == Display(1.004, GB);
    assert FormatDataUsage(1.001 * GiB) == Display(1.001, GB);
    assert Fixed2(1.004) == 1.0 && Fixed2(1.001) == 1.0;
  }

  /** The icon as written can contradict the percentage shown beside it:
      500 MiB against 2 GiB is a negative change with the upward icon. */
  lemma TrendAsWrittenContradictsPercent()
    ensures var today, yesterday := 500.0 * MiB, 2.0 * GiB;
      && PercentChange(today, yesterday).Change?
      && PercentChange(today, yesterday).value < 0.0
      && TrendIconAsWritten(FormatDataUsage(today), FormatDataUsage(yesterday)) == Bullish
  {
    TrendAsWrittenIgnoresUnits();
    PercentChangeSign(500.0 * MiB, 2.0 * GiB);
  }

  /** The trend icon comparing the byte amounts the two labels stand for. */
  function TrendIcon(totalUsage: Display, lastDayUsage: Display): (t: Trend)
    ensures t == Bullish <==> Bytes(totalUsage) > Bytes(lastDayUsage)
  {
    if Bytes(totalUsage) > Bytes(lastDayUsage) then Bullish else Bearish
  }

  /** On formatted totals the icon is upward exactly when today's total is
      larger; ties are downward. */
  lemma TrendIconFollowsTotals(today: real, yesterday: real)
    ensures TrendIcon(FormatDataUsage(today), FormatDataUsage(yesterday)) == Bullish <==> today > yesterday
  {
  }

  /** The corrected icon agrees with the sign of the percentage beside it
      whenever a percentage is computed. */
  lemma TrendIconAgreesWithPercent(today: real, yesterday: real)
    requires yesterday > 0.0
    ensures TrendIcon(FormatDataUsage(today), FormatDataUsage(yesterday)) == Bullish
        <==> PercentChange(today, yesterday).value > 0.0
  {
    PercentChangeSign(today, yesterday);
  }

  /** Within one unit the code as written errs only towards the downward
      icon: an upward icon as written is upward after the correction too. */
  lemma TrendAsWrittenWithinUnit(today: real, yesterday: real)
    requires FormatDataUsage(today).unit == FormatDataUsage(yesterday).unit
    ensures TrendIconAsWritten(FormatDataUsage(today), FormatDataUsage(yesterday)) == Bullish
        ==> TrendIcon(FormatDataUsage(today), FormatDataUsage(yesterday)) == Bullish
  {
    var t, y := FormatDataUsage(today), FormatDataUsage(yesterday);
    if Fixed2(t.amount) > Fixed2(y.amount) {
      if t.amount <= y.amount {
        Fixed2Monotone(t.amount, y.amount);
      }
      var k := UnitBytes(t.unit);
      assert (t.amount - y.amount) * k > 0.0;
    }
  }

  /** What the panel displays. */
  datatype OverviewState = OverviewState(
    totalUsage: Display, differencePercentage: Percent, lastDayUsage: Display, counts: StatusCounts)

  /** Before a load completes, and after a failed one: '0 GB', '0' and zero counts. */
  const InitialState := OverviewState(Display(0.0, GB), ZeroPercent, Display(0.0, GB), StatusCounts(0, 0, 0, 0))

  /** The panel after a load: a rejected load is logged and leaves the
      initial state; otherwise the two days are summarised. */
  function ProcessData(loaded: Result<seq<UsageRecord>, string>): (s: OverviewState)
    ensures loaded.Failure? ==> s == InitialState
    ensures loaded.Success? ==> Summarises(s, loaded.value)
  {
    match loaded
    case Failure(_) => InitialState
    case Success(records) => Summary(records)
  }

  /** What the panel shows for a successful load of `records`: each day's
      label scales back to that day's total, the percentage is '0' exactly
      when yesterday has no positive total and otherwise grows yesterday into
      today, and the counters are the per-status counts of today's records. */
  predicate Summarises(s: OverviewState, records: seq<UsageRecord>) {
    var today := DayRecords(records, Today);
    var todayTotal := TotalUsage(today);
    var yesterdayTotal := TotalUsage(DayRecords(records, Yesterday));
    && Labels(s.totalUsage, todayTotal)
    && Labels(s.lastDayUsage, yesterdayTotal)
    && (s.differencePercentage == ZeroPercent <==> !(yesterdayTotal > 0.0))
    && GrowsInto(yesterdayTotal, s.differencePercentage, todayTotal)
    && s.counts == StatusCountsOf(today)
    && CountSum(s.counts) <= |today|
  }

  /** `processData` on loaded records: filter both days, add up, format,
      compare and tally. */
  function Summary(records: seq<UsageRecord>): (s: OverviewState)
    ensures Summarises(s, records)
  {
    var today := DayRecords(records, Today);
    var todayTotal := TotalUsage(today);
    var yesterdayTotal := TotalUsage(DayRecords(records, Yesterday));
    CountsBounded(today);
    OverviewState(FormatDataUsage(todayTotal), PercentChange(todayTotal, yesterdayTotal),
                  FormatDataUsage(yesterdayTotal), TallyAll(today))
  }

  /** The icon the usage card shows for a state. */
  function UsageTrend(s: OverviewState): Trend {
    TrendIcon(s.totalUsage, s.lastDayUsage)
  }

  /** The initial state shows zero usage, a '0' change and the downward icon. */
  lemma InitialStateIsEmpty()
    ensures Bytes(InitialState.totalUsage) == 0.0 && Bytes(InitialState.lastDayUsage) == 0.0
    ensures UsageTrend(InitialState) == Bearish
  {
  }
}

=== FILE: Records.dfy ===
/** The one domain entity of the dashboard: a daily data-usage record of a
    subscriber, with the fourteen fields of `DataUsageRecord`. */
module Records {
  import opened JsNumbers

  /** Strings stay strings; the three numeric fields are JavaScript numbers,
      so a missing or unparsed value is NaN. */
  datatype UsageRecord = UsageRecord(
    msisdn: string,
    billingStatus: string,
    usage: JsNumber,
    apnName: string,
    eventDate: string,
    isUseInternet: string,
    latitude: JsNumber,
    longitude: JsNumber,
    provinsi: string,
    kabupaten: string,
    kecamatan: string,
    kelurahan: string,
    area: string,
    region: string)

  /** The billing statuses the views know by name. */
  const InBilling := "IN-BILLING"
  const OutOfBilling := "OUT-OF-BILLING"
  const InTesting := "IN-TESTING"
  const Suspended := "SUSPENDED"
  const Retired := "RETIRED"
}

=== FILE: Sequences.dfy ===
/** Order-preserving selection from sequences, the shape of JavaScript's
    `Array.prototype.filter` that every view of the dashboard uses. */
module Sequences {

  /** `a` can be obtained from `b` by deleting elements, keeping the order. */
  predicate IsSubsequence<T(==)>(a: seq<T>, b: seq<T>)
    decreases |b|
  {
    if a == [] then true
    else if b == [] then false
    else if a[0] == b[0] then IsSubsequence(a[1..], b[1..])
    else IsSubsequence(a, b[1..])
  }

  /** Dropping the head of the larger sequence keeps a subsequence a subsequence of the whole. */
  lemma {:induction false} SubsequenceOfTail<T>(a: seq<T>, b: seq<T>)
    requires |b| > 0
    requires IsSubsequence(a, b[1..])
    ensures IsSubsequence(a, b)
    decreases |b|, 0
  {
    if a != [] && a[0] == b[0] {
      // b[1..] has a[0] somewhere: the tail of `a` is matched after it
      SubsequenceTailOfHead(a, b[1..]);
    }
  }

  /** If `a` is a subsequence of `b`, so is `a` without its first element. */
  lemma {:induction false} SubsequenceTailOfHead<T>(a: seq<T>, b: seq<T>)
    requires a != []
    requires IsSubsequence(a, b)
    ensures IsSubsequence(a[1..], b)
    decreases |b|, 1
  {
    if a[0] != b[0] {
      SubsequenceTailOfHead(a, b[1..]);
    }
    SubsequenceOfTail(a[1..], b);
  }

  /** Every element of a subsequence occurs in the whole sequence. */
  lemma {:induction false} SubsequenceMembers<T>(a: seq<T>, b: seq<T>, x: T)
    requires IsSubsequence(a, b)
    requires x in a
    ensures x in b
    decreases |b|
  {
    if a[0] == b[0] {
      if x != a[0] {
        SubsequenceMembers(a[1..], b[1..], x);
      }
    } else {
      SubsequenceMembers(a, b[1..], x);
    }
  }

  /** The elements of `s` that satisfy `keep`, in their original order. */
  function Filter<T(!new)>(s: seq<T>, keep: T -> bool): (r: seq<T>)
    ensures |r| <= |s|
    ensures IsSubsequence(r, s)
    ensures forall x :: x in r ==> keep(x)
    ensures forall x :: x in r <==> x in s && keep(x)
  {
    if s == [] then []
    else
      var rest := Filter(s[1..], keep);
      if keep(s[0]) then
        [s[0]] + rest
      else
        SubsequenceOfTail(rest, s);
        rest
  }

  /** The filter keeps every copy of a passing element and no copy of a
      failing one. */
  lemma {:induction false} FilterMultiplicity<T(!new)>(s: seq<T>, keep: T -> bool)
    ensures forall x :: multiset(Filter(s, keep))[x] == if keep(x) then multiset(s)[x] else 0
    decreases |s|
  {
    if s != [] {
      FilterMultiplicity(s[1..], keep);
      assert s == [s[0]] + s[1..];
      assert multiset(s) == multiset([s[0]]) + multiset(s[1..]);
      if keep(s[0]) {
        assert Filter(s, keep) == [s[0]] + Filter(s[1..], keep);
        assert multiset(Filter(s, keep)) == multiset([s[0]]) + multiset(Filter(s[1..], keep));
      }
    }
  }

  /** Filtering distributes over concatenation: the shape of a left-to-right loop. */
  lemma {:induction false} FilterAppend<T(!new)>(a: seq<T>, b: seq<T>, keep: T -> bool)
    ensures Filter(a + b, keep) == Filter(a, keep) + Filter(b, keep)
    decreases |a|
  {
    if a == [] {
      assert a + b == b;
    } else {
      assert (a + b)[0] == a[0];
      assert (a + b)[1..] == a[1..] + b;
      FilterAppend(a[1..], b, keep);
      if keep(a[0]) {
        assert Filter(a + b, keep) == [a[0]] + Filter(a[1..] + b, keep);
      } else {
        assert Filter(a + b, keep) == Filter(a[1..] + b, keep);
      }
    }
  }

  /** A filter that rejects nothing returns its input unchanged. */
  lemma {:induction false} FilterKeepsAll<T(!new)>(s: seq<T>, keep: T -> bool)
    requires forall x :: x in s ==> keep(x)
    ensures Filter(s, keep) == s
    decreases |s|
  {
    if s != [] {
      assert s[0] in s;
      assert forall x :: x in s[1..] ==> x in s;
      FilterKeepsAll(s[1..], keep);
    }
  }

  /** Re-filtering with the same predicate changes nothing. */
  lemma FilterIdempotent<T(!new)>(s: seq<T>, keep: T -> bool)
    ensures Filter(Filter(s, keep), keep) == Filter(s, keep)
  {
    FilterKeepsAll(Filter(s, keep), keep);
  }
}

=== FILE: Text.dfy ===
/** The string operations of the search filter: `toLowerCase` restricted to
    ASCII, and `includes`. */
module Text {

  predicate IsUpper(c: char) {
    'A' <= c <= 'Z'
  }

  /** The lower-case form of one character: 'A'..'Z' become 'a'..'z'. */
  function LowerChar(c: char): (l: char)
    ensures !IsUpper(l)
    ensures IsUpper(c) ==> l == (c as int - 'A' as int + 'a' as int) as char
    ensures !IsUpper(c) ==> l == c
  {
    if IsUpper(c) then (c as int + 32) as char else c
  }

  /** ASCII lower-casing: upper-case letters become lower case, every other
      character is kept, and the length does not change. */
  function ToLower(s: string): (r: string)
    ensures |r| == |s|
    ensures forall i :: 0 <= i < |r| ==> !IsUpper(r[i])
    ensures forall i :: 0 <= i < |s| && !IsUpper(s[i]) ==> r[i] == s[i]
    ensures forall i :: 0 <= i < |s| && IsUpper(s[i]) ==> r[i] == (s[i] as int - 'A' as int + 'a' as int) as char
  {
    seq(|s|, i requires 0 <= i < |s| => LowerChar(s[i]))
  }

  /** Lower-casing an already lower-cased string changes nothing. */
  lemma ToLowerIdempotent(s: string)
    ensures ToLower(ToLower(s)) == ToLower(s)
  {
  }

  predicate IsPrefix(p: string, s: string) {
    |p| <= |s| && s[..|p|] == p
  }

  /** JavaScript's `s.includes(p)`: `p` occurs in `s` at some position. */
  predicate Includes(s: string, p: string)
    decreases |s|
  {
    IsPrefix(p, s) || (|s| > 0 && Includes(s[1..], p))
  }

  /** `p` occurs in `s` starting at position `i`. */
  predicate OccursAt(s: string, p: string, i: int) {
    0 <= i && i + |p| <= |s| && s[i..i + |p|] == p
  }

  /** `Includes` agrees with the positional reading of substring search. */
  lemma {:induction false} IncludesAt(s: string, p: string)
    ensures Includes(s, p) <==> exists i :: OccursAt(s, p, i)
    decreases |s|
  {
    if exists i :: OccursAt(s, p, i) {
      var i :| OccursAt(s, p, i);
      if i > 0 {
        assert OccursAt(s[1..], p, i - 1);
        IncludesAt(s[1..], p);
      } else {
        assert IsPrefix(p, s);
      }
    }
    if Includes(s, p) && !IsPrefix(p, s) {
      IncludesAt(s[1..], p);
      var i :| OccursAt(s[1..], p, i);
      assert OccursAt(s, p, i + 1);
    } else if IsPrefix(p, s) {
      assert OccursAt(s, p, 0);
    }
  }

  /** A string that lacks the first character of `p` does not include `p`. */
  lemma {:induction false} MissingFirstChar(s: string, p: string)
    requires p != []
    requires forall i :: 0 <= i < |s| ==> s[i] != p[0]
    ensures !Includes(s, p)
    decreases |s|
  {
    if |s| > 0 {
      MissingFirstChar(s[1..], p);
      assert !IsPrefix(p, s) by {
        if |p| <= |s| {
          assert s[..|p|][0] == s[0];
        }
      }
    }
  }

  /** The upper-case form of a lower-case letter. */
  function UpperOf(c: char): char
    requires 'a' <= c <= 'z'
  {
    (c as int - 'a' as int + 'A' as int) as char
  }

  /** A lower-case letter that occurs in neither case in `s` does not occur in
      the lower-cased `s` either. */
  lemma LowerLacks(s: string, c: char)
    requires 'a' <= c <= 'z'
    requires c !in s && UpperOf(c) !in s
    ensures c !in ToLower(s)
  {
    forall i | 0 <= i < |s|
      ensures ToLower(s)[i] != c
    {
      assert s[i] in s;
    }
  }
}

=== FILE: Units.dfy ===
/** Byte amounts shown to the user: a number and the unit it is expressed in.
    The amount is kept exact; the two-decimal rendering that the trend icon
    reads back is modelled where the icon is. */
module Units {

  datatype Unit = KB | MB | GB | TB

  const KiB: real := 1024.0
  const MiB: real := 1048576.0
  const GiB: real := 1073741824.0
  const TiB: real := 1099511627776.0

  /** How many bytes one of `unit` stands for. */
  function UnitBytes(unit: Unit): (b: real)
    ensures b > 0.0
  {
    match unit
    case KB => KiB
    case MB => MiB
    case GB => GiB
    case TB => TiB
  }

  /** An amount in a unit, as a label like "2.00 MB" shows it. */
  datatype Display = Display(amount: real, unit: Unit)

  /** The byte count a display stands for. */
  function Bytes(d: Display): real {
    d.amount * UnitBytes(d.unit)
  }
}

=== FILE: Wrappers.dfy ===
/** Wrappers for the dashboard model: an optional value and the
    resolve/reject outcome of a promise. */
module Wrappers {

  /** A value that may be absent. */
  datatype Option<+T> = None | Some(value: T)

  /** A settled promise: resolved with a value or rejected with an error. */
  datatype Result<+R, +E> = Success(value: R) | Failure(error: E)
}
